=== FILE: README.md ===
# GPU draw-state manager of gippy, in Dafny

This project models the `Core` class of gippy (`src/Core.ts`), a small WebGL2 wrapper, and proves properties of it. `Core` owns:

- the named shader programs;
- the attribute and uniform locations resolved against those programs;
- the vertex-array objects ("vaos") with their draw counts;
- the texture units;
- three "currently bound" cells: program, vao and render target. These cells let it skip redundant bind calls.

The model is functional. A `CoreState.Core` record holds the registries and the three cells. Each public method is a function from the state and its arguments to one of:

- the new state plus the sequence of driver calls it issues (`GL.GLCall`); `setProgram` is the exception, returning the new state alone (see "## Left out");
- an `Error` naming the exception the method throws.

The WebGL context is not modelled as an object. Its calls are data, and its answers to queries are supplied by a `CoreState.Driver` record of oracles:

- shader compile status and info log;
- link status;
- `getAttribLocation`;
- `getUniformLocation`.

Fresh driver objects get handles from a counter in the state.

Modules:

- `Results`: `Option` and `Result`.
- `GL`: the driver calls, and `Replay`, which tracks what the driver has bound after a sequence of calls.
- `Layout`: the `strideMap` table and the attribute slot layout used by `enableAttribute`.
- `Dispatch`: the `uniMethod` table and the shape of a uniform upload.
- `Elision`: counts the binds an elided-bind cell issues over a sequence of requests.
- `CoreState`: the entities, the driver oracles and the errors.
- `Programs`: `setProgram`, `useProgram`, `setAttLoc` and `setUniLoc`.
- `Geometry`: `enableAttribute`, `getStrideSize`, `setVao`, `useVao`, `createInstancedVbo`, `updateInstancedVbo`, `render` and `renderInstanced`.
- `Uniforms`: `setUniforms`.
- `Textures`: `setTexture` and `useTexture`.
- `RenderTarget`: `useRenderer`.
- `Coherence`: proves that the program and vao cells agree with what the driver has actually bound. This holds with the corrected `setVao` (see "## Findings"), over runs that never register a program under the currently selected program id. It is the property that makes elision sound. The render-target cell is not tracked there, since nothing else binds a framebuffer.

Two behaviours of the code that the model keeps as they are:

- A failed link throws an error without the driver's log. Line 79 of `src/Core.ts` asks for a *shader* info log of a program object, so the log is never obtained. `CoreState.Error.LinkFailed` carries no message.
- Attribute locations and strides are keyed by attribute name only, not by program (lines 35-36, 99-102). The first program that declares a name fixes its location and stride for every geometry.

## Model

| member | source | states |
|---|---|---|
| Dispatch.UniMethod | src/Core.ts:4-16 | Each uniform type maps to an upload method whose arity equals the type's component count. The method takes integers exactly for `int`/`ivecN`. The matrix flag holds exactly for `matN`, and only matrix methods get it. The array flag holds exactly for non-matrix types with more than one component. |
| Dispatch.Upload | src/Core.ts:202-205 | One upload call for a uniform, through the method of the type's `uniMethod` row: a matrix method exactly for matrix types, of the type's arity and integer kind. It goes to the given location with the given value. It passes transpose `false` for matrices and no transpose argument otherwise. |
| Dispatch.UploadPaths | src/Core.ts:8-12 | A `vec3` goes through `uniform3fv` without transpose. A 16-value `mat4` goes through `uniformMatrix4fv` with transpose `false`. |
| Layout.StrideOf | src/Core.ts:18-25 | Slot count times slot width equals the type's component count. The stride is a row/column pair exactly for matrix types, and those pairs are square. |
| Layout.StrideSize | src/Core.ts:150-154 | The stride size is the number of floats per vertex. For a matrix, the byte stride is four times that. |
| Layout.StrideSizeOfType | src/Core.ts:150-154 | For every declared type, the stride size equals the component count: 3 for `vec3`, and 16 (64 bytes) for `mat4`. |
| Layout.AttributeSlots | src/Core.ts:137-147 | An attribute at location L occupies `Slots` consecutive locations starting at L. Slot i is `SlotWidth` floats wide and starts at byte offset i·SlotWidth·4. The byte stride is 0 for a vector and rows·cols·4 for a matrix. |
| Layout.PointerCalls | src/Core.ts:139-145 | For each slot in order: first the enable call for its location, then the pointer call describing it. Nothing else is issued. |
| Layout.EnabledPointerCalls | src/Core.ts:143-146 | The pointer calls of a slot list enable exactly the slots' locations. |
| Layout.EnabledSlots | src/Core.ts:143-146 | `enableAttribute` enables exactly the locations L .. L+Slots-1. |
| Layout.SlotCalls | src/Core.ts:143-146 | Call 2i enables location L+i. Call 2i+1 describes that location with the slot's width, stride and offset. |
| Layout.Mat4Layout | src/Core.ts:142-146 | A `mat4` takes four slots of four floats each, 64 bytes per vertex, at offsets 0, 16, 32 and 48. |
| Geometry.EnableAttribute | src/Core.ts:134-148 | Throws exactly when the name has no stored stride. Otherwise it issues the pointer calls of the attribute's slot layout, enables exactly its slot range, and binds no program or vao. |
| Programs.SetProgram | src/Core.ts:61-88 | Succeeds exactly when both stages compile and the program links. Failures are reported in order: vertex stage, fragment stage, link. For the first stage that fails, the error is exactly `CreateShaderFailed` of that stage when the driver creates no shader, and exactly `CompileFailed` of that stage with the info log, or "compile error" when there is none, when compilation fails. Once both stages compile, the error is `CreateProgramFailed` exactly when the driver creates no program and `LinkFailed` exactly when linking fails. On success `id` maps to the new program and every other entry is kept. |
| Programs.UseProgram | src/Core.ts:90-95 | Afterwards `id` is current, and nothing else changes. A bind of the program's handle is issued exactly when `id` was not already current. |
| Programs.UseProgramIdempotent | src/Core.ts:90-95 | Requesting the current program again issues nothing and changes nothing. |
| Programs.UseProgramsBindOncePerRun | src/Core.ts:90-95 | Over any sequence of requests, the number of binds equals the number of id switches. Every call is a program bind, and the last id requested is current. |
| Programs.RunOfOneProgram | src/Core.ts:90-95 | Repeated requests for one id issue one bind, or none if that id was already current. |
| Elision.SwitchesCountRuns | src/Core.ts:91-93 | From an empty cell, the binds issued equal the number of maximal runs of equal ids. There is one fewer when the first run's id is already bound. |
| Programs.DeclareAttribute | src/Core.ts:99-103 | One declaration. It queries exactly when the name is missing or stored at location 0, and throws only then for an unregistered program. It adds the name, keeps every stored entry, and gives a new name the driver's location and the type's stride. |
| Programs.SetAttLoc | src/Core.ts:97-105 | Afterwards every declared name is resolved, and existing entries are never overwritten. It throws exactly when the program is unregistered and some declared name needs a query. Every query issued is for a declared name that was missing or stored at location 0. |
| Programs.SetAttLocFirstDeclarationWins | src/Core.ts:98-103 | A name unresolved before the call gets the driver's location and the stride of its first declared type, whatever types later declarations give it. |
| Programs.SetAttLocQueriesUnresolved | src/Core.ts:99-100 | Every declared name that is missing or stored at location 0 is queried against the program. |
| Programs.ZeroLocationRequeried | src/Core.ts:99-102 | A name stored at location 0 is queried again on redeclaration, but its stored entry is kept. |
| Programs.ResolveUniforms | src/Core.ts:193-196 | One query per listed name, in order. The map holds exactly the names the driver resolves, at the locations it reports. |
| Programs.SetUniLoc | src/Core.ts:191-197 | Replaces the program's uniform map with exactly the listed names the driver resolves. Other programs' maps are unchanged. A nonempty list for an unregistered program throws. |
| Geometry.UploadAttributes | src/Core.ts:110-116 | Throws exactly when an attribute with values has no stored stride. The error is then `MissingStride` of a name with no stored stride, as `enableAttribute` throws at line 136. |
| Geometry.UploadAttributesFirstError | src/Core.ts:110-116 | The loop throws `MissingStride` naming exactly the first array given with values whose name has no stored stride. |
| Geometry.UploadAttributesCalls | src/Core.ts:110-116 | When no attribute with values lacks a stride, the loop succeeds. Its calls are exactly `ArraysCalls`: for each array with values, in order, a fresh buffer is bound and filled with the values using static usage, then come the attribute's `enableAttribute` pointer calls (`ArrayCalls`). An `undefined` array issues nothing. One handle is used per array with values. |
| Geometry.ArraysCallsAppend | src/Core.ts:110-116 | Splitting the array list anywhere: the front part's calls come first, and the rest's buffers are numbered after the front part's arrays with values. So array `i`'s buffer is the first handle plus the number of arrays with values before it. |
| Geometry.ArrayCallsEffect | src/Core.ts:111-115 | One array's calls bind no program and no vao. They enable exactly its attribute's slot range when it has values and is declared, and nothing otherwise. |
| Geometry.LoopKeepsBindings | src/Core.ts:110-116 | The attribute loop binds no program and no vao. |
| Geometry.LoopEnables | src/Core.ts:110-116 | The attribute loop enables exactly the slot ranges of the declared attributes given with values. |
| Geometry.OccupiedByMembers | src/Core.ts:110-116 | A location is in the collected slot ranges exactly when some attribute given with values is declared and occupies it. |
| Geometry.UnresolvedSplit | src/Core.ts:110-116 | An attribute with values and no stride is either the first entry or one of the rest. |
| Geometry.DrawCount | src/Core.ts:125-131 | The count is the index length when there is an index array. Otherwise, count × stride size equals the first attribute's value count. It throws exactly when there is no index array and the first attribute is missing, has no values, or is undeclared. |
| Geometry.SetVaoAsWritten | src/Core.ts:107-132 | Throws exactly when an attribute with values is undeclared, or when there is no index array and no first attribute with values. An undeclared attribute with values gives `MissingStride` of an undeclared name (lines 115 and 136). Otherwise the failure is `NoFirstAttribute` (lines 128-129). Otherwise the result is `BuildVao`'s, and the `currentVao` cell is left as it was. |
| Geometry.BuildVao | src/Core.ts:107-132 | The new vao gets a fresh handle and the `DrawCount` of its arrays. Only this id's entry and the handle counter change. One handle is taken per buffer created, including the index buffer. The calls are exactly `VaoCalls`: bind the new vao, the attribute loop's per-array uploads and pointer calls, the index upload, then unbind. In between, no other binding is touched. The enabled locations are exactly those the present attributes occupy. |
| Geometry.BuildsExactly | src/Core.ts:110-131 | `setVao` succeeds exactly when neither the attribute loop nor the draw count throws. |
| Geometry.VaoCallsShape | src/Core.ts:108-122 | The `setVao` calls bind the fresh vao first and unbind it last. Between those, no program or vao is bound, and exactly the occupied slots are enabled. |
| Geometry.SetVaoEnablesOccupied | src/Core.ts:110-116 | The built vao has a location enabled exactly when some attribute given with values is declared and occupies it. |
| Geometry.SetVao | src/Core.ts:107-132 | Throws under the same conditions, and with the same error, as `SetVaoAsWritten`: `MissingStride` of an undeclared name when an attribute with values is undeclared, otherwise `NoFirstAttribute`. On success it issues the same calls (`VaoCalls`: per-array uploads and pointer calls, index upload, bracketed by the vao bind and unbind) and registers the same geometry with its `DrawCount`. The difference is that the vao cell is cleared, because no vao is bound afterwards. |
| Geometry.SetVaoFirstError | src/Core.ts:110-116 | Both versions of `setVao` throw `MissingStride` of exactly the first array given with values whose name has no stored stride. |
| Geometry.IndexUpload | src/Core.ts:117-121 | Without an index array, nothing is issued and no handle is used. With one, a fresh element buffer is bound and filled with the index array's length and static usage. No location is enabled. |
| Geometry.UseVao | src/Core.ts:184-189 | Afterwards `id` is current, and nothing else changes. A bind of its handle is issued exactly when `id` was not already current. |
| Geometry.UseVaosBindOncePerRun | src/Core.ts:184-189 | Over any sequence of requests, the number of binds equals the number of id switches. All of them are vao binds, and the last id requested is current. |
| Geometry.InstanceDivisors | src/Core.ts:163-170 | Divisor 1 is set on exactly the attribute's slot range, and on nothing else. |
| Geometry.InstanceUpload | src/Core.ts:160-172 | Binds the buffer `vbo` and fills it with the instance data using dynamic usage. Then come the attribute's divisor calls. Last, the array buffer is unbound. No program or vao is bound. |
| Geometry.InstanceUploadDivides | src/Core.ts:163-170 | The instanced upload sets divisor 1, and no other divisor, on exactly the attribute's slot range. |
| Geometry.CreateInstancedVbo | src/Core.ts:156-175 | Throws exactly for an undeclared attribute. Otherwise it first issues `useVao`'s calls. Then the returned fresh handle is the buffer bound and filled with the data, divisor 1 is set on exactly the attribute's slots, and the array buffer is unbound. |
| Geometry.UpdateInstancedVbo | src/Core.ts:177-182 | Throws exactly for an undeclared attribute, and the error is then `MissingStride` of that attribute (lines 180 and 136). Otherwise it issues `useVao`'s calls, then rebinds the given buffer and replaces its contents. Then come exactly the attribute's `enableAttribute` pointer calls, so exactly its slots are enabled again. |
| Geometry.Reupload | src/Core.ts:179-181 | Binds the given buffer and replaces its contents. Everything after those two calls is exactly the given pointer calls. No program or vao is bound. |
| Geometry.Render | src/Core.ts:209-212 | Throws exactly when no registered vao is current. Otherwise it issues one indexed or non-indexed draw of the current vao's stored count. |
| Geometry.RenderInstanced | src/Core.ts:214-216 | Throws exactly when no registered vao is current. Otherwise it issues one instanced indexed triangle draw of the stored count. |
| Geometry.IndexedDrawCount | src/Core.ts:125-126 | A vao built with indices [0, 1, 2] is drawn with count 3. |
| Geometry.Vec3DrawCount | src/Core.ts:127-131 | A vao built from 12 values of a `vec3` attribute, with no indices, is drawn with count 4. |
| Geometry.ZeroInstances | src/Core.ts:214-216 | A zero-instance draw is still issued. |
| Geometry.SetVaoThenRender | src/Core.ts:107-216 | For every geometry `setVao` builds: selecting it binds the new vao, because the corrected `setVao` left no vao current. A plain, indexed or instanced draw then uses the `DrawCount` of its arrays. |
| Uniforms.WithValues | src/Core.ts:200-201 | Keeps every entry that carries a value and only those, each coming from the input. |
| Uniforms.WithValuesAppend | src/Core.ts:200-201 | Filtering a concatenation is the concatenation of the filtered parts, so order is preserved. |
| Uniforms.SetUniforms | src/Core.ts:199-207 | Throws exactly when some entry has a value and the current program has no uniform map. Otherwise entry i with a value is uploaded through its type's method at its location in the current program's map. |
| Uniforms.WithValuesSkipsNull | src/Core.ts:200-201 | Inserting an entry without a value at any position leaves the entries with values unchanged. |
| Uniforms.NullSettingSkipped | src/Core.ts:201 | Inserting an entry without a value at any position changes neither the outcome nor the calls. |
| Uniforms.SetUniformsUploadsEach | src/Core.ts:199-205 | With a current uniform map, every entry with a value is uploaded. Its upload comes right after those of the valued entries before it, through its type's `uniMethod` method, at its name's location in `uniLoc[currentProgram]`, with transpose `false` exactly for matrices. |
| RenderTarget.UseRenderer | src/Core.ts:218-226 | Afterwards the target is current, and nothing else changes. A switch binds the framebuffer, declares the draw buffers and sets the viewport to size × pixel ratio. No switch issues nothing. |
| RenderTarget.UseRendererIdempotent | src/Core.ts:220-225 | Requesting the current target again, with any other parameters, issues nothing. |
| RenderTarget.SwitchBackRecomputesViewport | src/Core.ts:220-225 | Switching away and back recomputes the viewport from the new size. |
| Textures.SetTexture | src/Core.ts:240-248 | A known key keeps its unit and only its data changes. A new key gets the next unit, equal to the number of registered keys. Units stay exactly 0 .. n-1, all distinct. A new unit is above every existing one. |
| Textures.InitialValidUnits | src/Core.ts:37 | A fresh manager's empty texture record satisfies the unit invariant that `SetTexture` keeps: the base case. |
| Textures.ReplaceKeepsUnits | src/Core.ts:241-243 | Replacing a known key's data keeps the unit invariant. |
| Textures.UnitsAdd | src/Core.ts:245-246 | A new key adds exactly its unit to the set of units. |
| Textures.UnitsBelowCount | src/Core.ts:245 | Under the invariant, every unit is below the key count. |
| Textures.AddKeepsDistinct | src/Core.ts:245-246 | A new key with a unit above all existing ones keeps units distinct. |
| Textures.AppendKeepsUnits | src/Core.ts:245-247 | Numbering a new key by the key count keeps units exactly 0 .. n-1, and the new unit is the largest. |
| Textures.SameKeySameUnit | src/Core.ts:241-243 | Setting the same key twice yields the same unit. |
| Textures.DistinctKeysIncreasingUnits | src/Core.ts:245-247 | Two new distinct keys, registered one after the other in any state, get distinct, increasing units. |
| Textures.FreshKeysNumberedInOrder | src/Core.ts:245-247 | A batch of new distinct keys is numbered consecutively from the current count. |
| Textures.UseTexture | src/Core.ts:250-257 | Throws exactly for an unknown key. A key with data activates its unit and binds that data. A key without data issues nothing. |
| Textures.SetThenUse | src/Core.ts:240-257 | Using a key right after setting it activates the unit returned by the set and binds the data just set. |
| GL.Replay | src/Core.ts:92 | The driver's bound program and vao are changed only by program and vao binds. A bind as the last call sets its binding. |
| GL.ReplayLastBind | src/Core.ts:92 | Whatever calls follow it, the last vao bind decides the bound vao, and the last program bind decides the bound program. |
| Coherence.InitialCoherent | src/Core.ts:38-39 | A fresh manager's empty cells agree with a driver that has nothing bound. |
| Coherence.ElidedBindsAreRedundant | src/Core.ts:91-92 | While the cells agree with the driver, a skipped bind is one whose object the driver already has bound. |
| Coherence.StepKeepsCoherent | src/Core.ts:90-189 | With the corrected `setVao`, every operation keeps the program and vao cells in agreement with the driver's bindings. The exception is registering a program under the currently selected id. With `setVao` as written, agreement is lost (see `SetVaoAsWrittenDesyncs`). `currentRenderer` is not tracked. |
| Coherence.RunKeepsCoherent | src/Core.ts:90-189 | With the corrected `setVao`, over any run that never registers a program under the currently selected program id, the program and vao cells end in agreement with the driver after it executes every issued call. `currentRenderer` is not tracked. |
| Coherence.ProgramStepKeepsCoherent | src/Core.ts:83-105 | Program-registry operations keep coherence, except registering a program under the bound id. |
| Coherence.GeometryStepKeepsCoherent | src/Core.ts:107-189 | Geometry operations keep coherence, given the corrected `setVao`. |
| Coherence.OtherStepKeepsCoherent | src/Core.ts:199-257 | Uniform uploads, draws, render-target switches and texture operations bind no program or vao. |
| Coherence.FrameKeepsCoherent | src/Core.ts:38-39 | An operation that changes neither cell nor the handles they resolve to, and binds nothing, keeps coherence. |
| Coherence.UseVaoKeepsCoherent | src/Core.ts:184-189 | `useVao` keeps coherence. |
| Coherence.SetAttLocKeepsCoherent | src/Core.ts:97-105 | Resolving attribute locations keeps coherence. |
| Coherence.SetUniLocKeepsCoherent | src/Core.ts:191-197 | Resolving uniform locations keeps coherence. |
| Coherence.SetUniformsKeepsCoherent | src/Core.ts:199-207 | Uniform uploads keep coherence. |
| Coherence.SetProgramKeepsCoherent | src/Core.ts:83-88 | Registering a program under an id other than the bound one keeps coherence. |
| Coherence.SetVaoKeepsCoherent | src/Core.ts:107-132 | The corrected `setVao` keeps coherence. |
| Coherence.InstancedKeepsCoherent | src/Core.ts:156-182 | Both instanced-buffer operations keep coherence. |
| Coherence.RedefiningBoundProgramDesyncs | src/Core.ts:87 | Registering a program under the selected id, whether or not one was registered there before, leaves a cell that names a program the driver does not have bound. A `useProgram` of that id is then skipped. |
| Coherence.SetVaoAsWrittenDesyncs | src/Core.ts:107-132 | `setVao` as written, with a registered vao current, leaves the driver with no vao while the cell still names the old one. A `useVao` of that id is then skipped. |
| Coherence.SetVaoAsWrittenCounterexample | src/Core.ts:109-122 | Build "a", use "a", build "b", use "a": the last request issues nothing, and the driver has no vao bound. |
| Coherence.SetVaoCorrectedRebinds | src/Core.ts:184-189 | With the corrected `setVao`, the same run rebinds "a". |

## Findings

| source | as written | input that shows it | evidently intended | confidence | as-written member | corrected member |
|---|---|---|---|---|---|---|
| src/Core.ts:107-132 | `setVao` binds the new vao and then binds null (lines 109 and 122), but never updates `currentVao`. | `setVao(a)`, `useVao(a)`, `setVao(b)`, `useVao(a)`: the last call skips the bind although the driver has no vao bound, so the next `render` draws with no vao. | Leave the cell in agreement with the driver, for example by clearing it, so the next `useVao` rebinds. | not executed | Geometry.SetVaoAsWritten (exhibited by Coherence.SetVaoAsWrittenCounterexample and Coherence.SetVaoAsWrittenDesyncs) | Geometry.SetVao (Coherence.SetVaoKeepsCoherent, Coherence.RunKeepsCoherent) |

## Left out

- Context creation and its `enable` options (lines 44-59): they set driver state that no modelled operation reads.
- `createTexture` (lines 228-238): it issues fixed texture-setup calls and returns the driver's handle. It is outside the modelled core.
- Buffer contents: uploads record target, length and usage. Packing into `Float32Array`/`Int16Array`, including the 16-bit truncation of indices, is not modelled.
- The viewport uses exact real multiplication; floating-point rounding is not modelled.
- The render target's framebuffer, and texture data, are opaque handles supplied by the caller.
- Driver allocation failures other than shader and program creation are not modelled: `createVertexArray` and `createBuffer` always succeed. Among them is the post-hoc throw at lines 123 and 173.
- Side effects issued before an exception are not modelled. A failing operation returns only its error, and the calls issued before the throw are dropped.
- The texture unit limit: the WebGL2 context names the constants `TEXTURE0` to `TEXTURE31` only, whatever the driver's unit count. From unit 32 on, the lookup ``gl[`TEXTURE${number}`]`` at lines 253-254 is `undefined`, and `activeTexture` raises `INVALID_ENUM`. The model lets units grow without bound and records the activation of any unit.
- Object iteration order: attribute and uniform records are modelled as sequences in their insertion order. JavaScript visits integer-like keys first, in ascending order, and only then the other keys in insertion order; that reordering is not modelled. Duplicate names in a sequence are possible in the model, not in a JavaScript object.
- Inherited object keys: the `program`, `vao`, `uniLoc`, `attLoc`, `stride` and `texture` records are plain objects, so a key such as "constructor" or "toString" reads a truthy value inherited from `Object.prototype`. For such a key `setTexture` returns early at lines 241-243 and `setAttLoc` skips the query. `useVao` and `useProgram` hand the inherited function to `bindVertexArray` or `useProgram` (lines 187 and 92), which throws a `TypeError`, and `setAttLoc` and `setUniLoc` hand it to the location queries. The model's maps hold no inherited entries, so it treats those keys like any other missing key: an unregistered id or a new name.
- Registering a program under the currently selected program id (line 87), whether that id held a program before or was selected while still unregistered: the `currentProgram` cell then names a program the driver does not have bound, and the next `useProgram` of that id is skipped (`Coherence.RedefiningBoundProgramDesyncs`). This is treated as a caller obligation, not corrected. The coherence theorem assumes runs that never do it (`Coherence.Disciplined`). The lemma's requirement that the bound program's handle be older than the next fresh handle is not proved for all reachable states.
- The driver calls of `setProgram` (lines 62-77: `createShader`, `shaderSource`, `compileShader`, `createProgram`, `attachShader` twice, the optional `transformFeedbackVaryings`, `linkProgram`) are not recorded. `Programs.SetProgram` returns only the new state, and `Coherence.Step` gives it no calls. None of these calls binds a program or a vertex array, so `GL.Replay` would leave the bindings as they are.
- `resizeListener` and the canvas size fields: they are stored but read by no modelled operation.
- Geometry.SetVaoAsWritten: the draw count is stated as a real quotient. JavaScript's division yields the same value up to floating-point rounding, which is not modelled.
- Uniforms.SetUniforms: a name absent from the current program's map is uploaded to a null location (`Lookup` gives `None`). The driver silently ignores such an upload, and the model does not go further.
- Geometry.Render: the model records the exact stored count, which is a real quotient when there is no index array. The WebGL binding declares `count` as `GLsizei`, so it truncates a non-integral count to its integer part. For example, 10 `vec3` values give a count of 10/3, and 3 vertices are drawn (lines 127-131 and 210). That truncation is not modelled. The count is never negative, since it is a length divided by a positive stride size.

=== FILE: coherence.dfy ===
/**
 * Soundness of bind elision. The `currentProgram` and `currentVao` cells are
 * meant to name what the driver has bound, so that an elided bind is
 * redundant. This module replays the issued calls against the driver's
 * bindings, shows every operation keeps the cells coherent with them, and
 * exhibits how `setVao` as written does not.
 */
module Coherence {
  import opened Results
  import opened CoreState
  import GL
  import Layout
  import Programs
  import Geometry
  import Uniforms
  import Textures
  import RenderTarget

  /** Each bound cell names what the driver has bound (a cell with no entry stands for the null binding). */
  predicate Coherent(s: Core, b: GL.Bindings) {
    && (s.currentProgram.Some? ==> b.program == ProgramHandle(s, s.currentProgram.value))
    && (s.currentVao.Some? ==> b.vao == VaoHandle(s, s.currentVao.value))
  }

  /** A freshly constructed manager is coherent with a driver that has nothing bound. */
  lemma InitialCoherent()
    ensures Coherent(Initial, GL.Bindings(None, None))
  {
  }

  /** When the cells are coherent, an elided bind is redundant: the driver already has the object bound. */
  lemma ElidedBindsAreRedundant(s: Core, b: GL.Bindings, program: ProgramId, vao: VaoId)
    requires Coherent(s, b)
    ensures Programs.UseProgram(s, program).1 == [] ==> b.program == ProgramHandle(s, program)
    ensures Geometry.UseVao(s, vao).1 == [] ==> b.vao == VaoHandle(s, vao)
  {
  }

  /** The public operations of the manager that the model covers. */
  datatype Op =
    | SetProgram(id: ProgramId, vertex: string, fragment: string, feedback: Option<seq<string>>)
    | UseProgram(id: ProgramId)
    | SetAttLoc(id: ProgramId, types: seq<(AttributeName, Layout.AttributeType)>)
    | SetUniLoc(id: ProgramId, names: seq<UniformName>)
    | SetVao(id: VaoId, index: Option<seq<int>>, list: seq<Geometry.AttributeArray>)
    | UseVao(id: VaoId)
    | CreateInstancedVbo(id: VaoId, att: AttributeName, values: seq<real>)
    | UpdateInstancedVbo(id: VaoId, att: AttributeName, values: seq<real>, vbo: nat)
    | SetUniforms(settings: seq<Uniforms.UniformSetting>)
    | Render(mode: GL.Primitive, drawElements: bool)
    | RenderInstanced(instances: int)
    | UseRenderer(target: RenderTarget.Target)
    | SetTexture(key: TextureKey, data: Option<nat>)
    | UseTexture(key: TextureKey)

  /** One operation: the new state and the calls issued (returned handles and units are dropped). */
  function Step(d: Driver, s: Core, op: Op): Result<(Core, seq<GL.GLCall>), Error> {
    match op
    case SetProgram(id, vertex, fragment, feedback) =>
      var s' :- Programs.SetProgram(d, s, id, vertex, fragment, feedback);
      Ok((s', []))
    case UseProgram(id) => Ok(Programs.UseProgram(s, id))
    case SetAttLoc(id, types) => Programs.SetAttLoc(d, s, id, types)
    case SetUniLoc(id, names) => Programs.SetUniLoc(d, s, id, names)
    case SetVao(id, index, list) => Geometry.SetVao(s, id, index, list)
    case UseVao(id) => Ok(Geometry.UseVao(s, id))
    case CreateInstancedVbo(id, att, values) =>
      var r :- Geometry.CreateInstancedVbo(s, id, att, values);
      Ok((r.0, r.1))
    case UpdateInstancedVbo(id, att, values, vbo) => Geometry.UpdateInstancedVbo(s, id, att, values, vbo)
    case SetUniforms(settings) =>
      var calls :- Uniforms.SetUniforms(s, settings);
      Ok((s, calls))
    case Render(mode, drawElements) =>
      var calls :- Geometry.Render(s, mode, drawElements);
      Ok((s, calls))
    case RenderInstanced(instances) =>
      var calls :- Geometry.RenderInstanced(s, instances);
      Ok((s, calls))
    case UseRenderer(target) => Ok(RenderTarget.UseRenderer(s, target))
    case SetTexture(key, data) => Ok((Textures.SetTexture(s, key, data).0, []))
    case UseTexture(key) =>
      var calls :- Textures.UseTexture(s, key);
      Ok((s, calls))
  }

  /**
   * The one way a caller can desynchronise the program cell: registering a
   * program under the currently selected id, whether or not a program was
   * registered under it before.
   */
  predicate RedefinesBoundProgram(s: Core, op: Op) {
    op.SetProgram? && s.currentProgram == Some(op.id)
  }

  /** Calls that do not touch the driver's program or vertex-array binding leave the bindings as they were. */
  lemma KeepsBindingsReplay(b: GL.Bindings, calls: seq<GL.GLCall>)
    requires Geometry.KeepsBindings(calls)
    ensures GL.Replay(b, calls) == b
  {
  }

  /**
   * An operation that leaves both cells, and the handles they resolve to, as
   * they were, and issues no binding call, keeps coherence.
   */
  lemma FrameKeepsCoherent(s: Core, s': Core, b: GL.Bindings, calls: seq<GL.GLCall>)
    requires Coherent(s, b) && Geometry.KeepsBindings(calls)
    requires s'.currentProgram == s.currentProgram && s'.currentVao == s.currentVao
    requires s.currentProgram.Some? ==> ProgramHandle(s', s.currentProgram.value) == ProgramHandle(s, s.currentProgram.value)
    requires s.currentVao.Some? ==> VaoHandle(s', s.currentVao.value) == VaoHandle(s, s.currentVao.value)
    ensures Coherent(s', GL.Replay(b, calls))
  {
    KeepsBindingsReplay(b, calls);
  }

  /** Calls followed by calls that keep the bindings replay like the first calls alone. */
  lemma BindThenKeep(b: GL.Bindings, binds: seq<GL.GLCall>, rest: seq<GL.GLCall>)
    requires Geometry.KeepsBindings(rest)
    ensures GL.Replay(b, binds + rest) == GL.Replay(b, binds)
  {
    GL.ReplayAppend(b, binds, rest);
    KeepsBindingsReplay(GL.Replay(b, binds), rest);
  }

  /** `useVao` keeps coherence: it binds the requested geometry unless the cell already names it. */
  lemma UseVaoKeepsCoherent(s: Core, b: GL.Bindings, id: VaoId)
    requires Coherent(s, b)
    ensures Coherent(Geometry.UseVao(s, id).0, GL.Replay(b, Geometry.UseVao(s, id).1))
  {
  }

  /** Registering a program under an id other than the bound one keeps coherence. */
  lemma SetProgramKeepsCoherent(d: Driver, s: Core, b: GL.Bindings, id: ProgramId, vertex: string, fragment: string,
                                feedback: Option<seq<string>>)
    requires Coherent(s, b) && s.currentProgram != Some(id)
    requires Programs.SetProgram(d, s, id, vertex, fragment, feedback).Ok?
    ensures Coherent(Programs.SetProgram(d, s, id, vertex, fragment, feedback).value, b)
  {
  }

  /** The corrected `setVao` keeps coherence: it clears the vertex-array cell, and the program cell is untouched. */
  lemma SetVaoKeepsCoherent(s: Core, b: GL.Bindings, id: VaoId, index: Option<seq<int>>, list: seq<Geometry.AttributeArray>)
    requires Coherent(s, b) && Geometry.SetVao(s, id, index, list).Ok?
    ensures Coherent(Geometry.SetVao(s, id, index, list).value.0, GL.Replay(b, Geometry.SetVao(s, id, index, list).value.1))
  {
    var calls := Geometry.SetVao(s, id, index, list).value.1;
    var middle := calls[1..|calls| - 1];
    assert calls == [calls[0]] + middle + [calls[|calls| - 1]];
    BindThenKeep(b, [calls[0]], middle);
    GL.ReplayAppend(b, [calls[0]] + middle, [calls[|calls| - 1]]);
  }

  /** Both instanced-buffer operations bind the geometry as `useVao` does, then keep the bindings. */
  lemma InstancedKeepsCoherent(s: Core, s': Core, b: GL.Bindings, id: VaoId, calls: seq<GL.GLCall>)
    requires Coherent(s, b)
    requires s' == Geometry.UseVao(s, id).0 || s' == Geometry.UseVao(s, id).0.(nextHandle := s.nextHandle + 1)
    requires |Geometry.UseVao(s, id).1| <= |calls| && calls[..|Geometry.UseVao(s, id).1|] == Geometry.UseVao(s, id).1
    requires Geometry.KeepsBindings(calls[|Geometry.UseVao(s, id).1|..])
    ensures Coherent(s', GL.Replay(b, calls))
  {
    var binds := Geometry.UseVao(s, id).1;
    assert calls == binds + calls[|binds|..];
    BindThenKeep(b, binds, calls[|binds|..]);
    UseVaoKeepsCoherent(s, b, id);
  }

  /** The operations of the program registry. */
  predicate ProgramOp(op: Op) {
    op.SetProgram? || op.SetAttLoc? || op.SetUniLoc? || op.UseProgram?
  }

  /** The operations of the geometry registry. */
  predicate GeometryOp(op: Op) {
    op.SetVao? || op.UseVao? || op.CreateInstancedVbo? || op.UpdateInstancedVbo?
  }

  /** Program-registry operations keep coherence, except registering a program under the bound id. */
  lemma ProgramStepKeepsCoherent(d: Driver, s: Core, b: GL.Bindings, op: Op)
    requires ProgramOp(op) && Coherent(s, b) && !RedefinesBoundProgram(s, op) && Step(d, s, op).Ok?
    ensures Coherent(Step(d, s, op).value.0, GL.Replay(b, Step(d, s, op).value.1))
  {
    match op
    case SetProgram(id, vertex, fragment, feedback) =>
      SetProgramKeepsCoherent(d, s, b, id, vertex, fragment, feedback);
    case SetAttLoc(id, types) =>
      SetAttLocKeepsCoherent(d, s, b, id, types);
    case SetUniLoc(id, names) =>
      SetUniLocKeepsCoherent(d, s, b, id, names);
    case UseProgram(id) =>
  }

  /** Building and selecting geometries keeps coherence (with the corrected `setVao`). */
  lemma VaoStepKeepsCoherent(d: Driver, s: Core, b: GL.Bindings, op: Op)
    requires (op.SetVao? || op.UseVao?) && Coherent(s, b) && Step(d, s, op).Ok?
    ensures Coherent(Step(d, s, op).value.0, GL.Replay(b, Step(d, s, op).value.1))
  {
    match op
    case SetVao(id, index, list) =>
      SetVaoKeepsCoherent(s, b, id, index, list);
    case UseVao(id) =>
      UseVaoKeepsCoherent(s, b, id);
  }

  /** Both instanced-buffer operations keep coherence. */
  lemma InstancedStepKeepsCoherent(d: Driver, s: Core, b: GL.Bindings, op: Op)
    requires (op.CreateInstancedVbo? || op.UpdateInstancedVbo?) && Coherent(s, b) && Step(d, s, op).Ok?
    ensures Coherent(Step(d, s, op).value.0, GL.Replay(b, Step(d, s, op).value.1))
  {
    match op
    case CreateInstancedVbo(id, att, values) =>
      var r := Geometry.CreateInstancedVbo(s, id, att, values).value;
      InstancedKeepsCoherent(s, r.0, b, id, r.1);
    case UpdateInstancedVbo(id, att, values, vbo) =>
      var r := Geometry.UpdateInstancedVbo(s, id, att, values, vbo).value;
      InstancedKeepsCoherent(s, r.0, b, id, r.1);
  }

  /** Geometry-registry operations keep coherence (with the corrected `setVao`). */
  lemma GeometryStepKeepsCoherent(d: Driver, s: Core, b: GL.Bindings, op: Op)
    requires GeometryOp(op) && Coherent(s, b) && Step(d, s, op).Ok?
    ensures Coherent(Step(d, s, op).value.0, GL.Replay(b, Step(d, s, op).value.1))
  {
    if op.SetVao? || op.UseVao? {
      VaoStepKeepsCoherent(d, s, b, op);
    } else {
      InstancedStepKeepsCoherent(d, s, b, op);
    }
  }

  /** Uniform uploads, draws, render-target switches and texture operations bind no program or vertex array. */
  lemma OtherStepKeepsCoherent(d: Driver, s: Core, b: GL.Bindings, op: Op)
    requires !ProgramOp(op) && !GeometryOp(op) && Coherent(s, b) && Step(d, s, op).Ok?
    ensures Coherent(Step(d, s, op).value.0, GL.Replay(b, Step(d, s, op).value.1))
  {
    match op
    case SetUniforms(settings) =>
      SetUniformsKeepsCoherent(s, b, settings);
    case Render(mode, drawElements) =>
    case RenderInstanced(instances) =>
    case UseRenderer(target) =>
    case SetTexture(key, data) =>
    case UseTexture(key) =>
  }

  /**
   * Every operation keeps the cells coherent with the driver, except
   * registering a program under the bound id.
   */
  lemma StepKeepsCoherent(d: Driver, s: Core, b: GL.Bindings, op: Op)
    requires Coherent(s, b) && !RedefinesBoundProgram(s, op) && Step(d, s, op).Ok?
    ensures Coherent(Step(d, s, op).value.0, GL.Replay(b, Step(d, s, op).value.1))
  {
    if ProgramOp(op) {
      ProgramStepKeepsCoherent(d, s, b, op);
    } else if GeometryOp(op) {
      GeometryStepKeepsCoherent(d, s, b, op);
    } else {
      OtherStepKeepsCoherent(d, s, b, op);
    }
  }

  /** Resolving attribute locations only queries the driver. */
  lemma SetAttLocKeepsCoherent(d: Driver, s: Core, b: GL.Bindings, id: ProgramId, types: seq<(AttributeName, Layout.AttributeType)>)
    requires Coherent(s, b) && Programs.SetAttLoc(d, s, id, types).Ok?
    ensures Coherent(Programs.SetAttLoc(d, s, id, types).value.0, GL.Replay(b, Programs.SetAttLoc(d, s, id, types).value.1))
  {
    var (s', calls) := Programs.SetAttLoc(d, s, id, types).value;
    assert Geometry.KeepsBindings(calls) by {
      assert forall i :: 0 <= i < |calls| ==> calls[i] in calls;
    }
    FrameKeepsCoherent(s, s', b, calls);
  }

  /** Resolving uniform locations only queries the driver. */
  lemma SetUniLocKeepsCoherent(d: Driver, s: Core, b: GL.Bindings, id: ProgramId, names: seq<UniformName>)
    requires Coherent(s, b) && Programs.SetUniLoc(d, s, id, names).Ok?
    ensures Coherent(Programs.SetUniLoc(d, s, id, names).value.0, GL.Replay(b, Programs.SetUniLoc(d, s, id, names).value.1))
  {
    var (s', calls) := Programs.SetUniLoc(d, s, id, names).value;
    FrameKeepsCoherent(s, s', b, calls);
  }

  /** Uniform uploads bind nothing. */
  lemma SetUniformsKeepsCoherent(s: Core, b: GL.Bindings, settings: seq<Uniforms.UniformSetting>)
    requires Coherent(s, b) && Uniforms.SetUniforms(s, settings).Ok?
    ensures Coherent(s, GL.Replay(b, Uniforms.SetUniforms(s, settings).value))
  {
    var calls := Uniforms.SetUniforms(s, settings).value;
    assert Geometry.KeepsBindings(calls) by {
      assert forall i :: 0 <= i < |calls| ==> calls[i].Uniform?;
    }
    FrameKeepsCoherent(s, s, b, calls);
  }

  /** A run of operations, stopping at the first that throws. */
  function Run(d: Driver, s: Core, ops: seq<Op>): Result<(Core, seq<GL.GLCall>), Error>
    decreases |ops|
  {
    if |ops| == 0 then Ok((s, []))
    else
      var first :- Step(d, s, ops[0]);
      var rest :- Run(d, first.0, ops[1..]);
      Ok((rest.0, first.1 + rest.1))
  }

  /** No operation of the run registers a program under the id bound at that point. */
  predicate Disciplined(d: Driver, s: Core, ops: seq<Op>)
    decreases |ops|
  {
    |ops| == 0 ||
    (!RedefinesBoundProgram(s, ops[0]) &&
     (Step(d, s, ops[0]).Ok? ==> Disciplined(d, Step(d, s, ops[0]).value.0, ops[1..])))
  }

  /**
   * Bind elision is sound over any disciplined run: afterwards the cells still
   * name what the driver, having executed every issued call, has bound.
   */
  lemma {:induction false} RunKeepsCoherent(d: Driver, s: Core, b: GL.Bindings, ops: seq<Op>)
    requires Coherent(s, b) && Disciplined(d, s, ops) && Run(d, s, ops).Ok?
    ensures Coherent(Run(d, s, ops).value.0, GL.Replay(b, Run(d, s, ops).value.1))
    decreases |ops|
  {
    if |ops| > 0 {
      var s1 := Step(d, s, ops[0]).value.0;
      var c1 := Step(d, s, ops[0]).value.1;
      StepKeepsCoherent(d, s, b, ops[0]);
      var b1 := GL.Replay(b, c1);
      RunKeepsCoherent(d, s1, b1, ops[1..]);
      var c2 := Run(d, s1, ops[1..]).value.1;
      GL.ReplayAppend(b, c1, c2);
    }
  }

  /**
   * Registering a new program under the selected id, whether or not one was
   * registered there before, leaves the cell naming an id whose program the
   * driver does not have bound, so the next `useProgram` of it is elided wrongly.
   */
  lemma RedefiningBoundProgramDesyncs(d: Driver, s: Core, b: GL.Bindings, vertex: string, fragment: string)
    requires Coherent(s, b) && s.currentProgram.Some?
    requires s.currentProgram.value in s.programs ==> s.programs[s.currentProgram.value].handle < s.nextHandle
    requires Step(d, s, SetProgram(s.currentProgram.value, vertex, fragment, None)).Ok?
    ensures var (s', calls) := Step(d, s, SetProgram(s.currentProgram.value, vertex, fragment, None)).value;
      && !Coherent(s', GL.Replay(b, calls))
      && Programs.UseProgram(s', s.currentProgram.value).1 == []
  {
  }

  /**
   * `setVao` as written breaks coherence whenever a registered geometry is
   * current: the driver ends with no vertex array bound while the cell still
   * names that geometry, so its next `useVao` issues no bind.
   */
  lemma SetVaoAsWrittenDesyncs(s: Core, b: GL.Bindings, id: VaoId, index: Option<seq<int>>, list: seq<Geometry.AttributeArray>)
    requires s.currentVao.Some? && s.currentVao.value in s.vaos
    requires Geometry.Builds(s, index, list)
    ensures var (s', calls) := Geometry.SetVaoAsWritten(s, id, index, list).value;
      && !Coherent(s', GL.Replay(b, calls))
      && GL.Replay(b, calls).vao == None
      && Geometry.UseVao(s', s.currentVao.value).1 == []
  {
  }

  /**
   * A concrete run: build geometry "a", bind it, build geometry "b" with the
   * as-written `setVao`, then ask for "a" again. No bind is issued and the
   * driver is left with no vertex array, although "a" is registered.
   */
  lemma SetVaoAsWrittenCounterexample()
    ensures
      var (s1, c1) := Geometry.SetVaoAsWritten(Initial, "a", Some([0, 1, 2]), []).value;
      var (s2, c2) := Geometry.UseVao(s1, "a");
      var (s3, c3) := Geometry.SetVaoAsWritten(s2, "b", Some([0, 1, 2]), []).value;
      var (s4, c4) := Geometry.UseVao(s3, "a");
      && c4 == []
      && s4.currentVao == Some("a")
      && VaoHandle(s4, "a") == Some(0)
      && GL.Replay(GL.Bindings(None, None), c1 + c2 + c3 + c4).vao == None
  {
    var (s1, c1) := Geometry.SetVaoAsWritten(Initial, "a", Some([0, 1, 2]), []).value;
    var (s2, c2) := Geometry.UseVao(s1, "a");
    var (s3, c3) := Geometry.SetVaoAsWritten(s2, "b", Some([0, 1, 2]), []).value;
    var (s4, c4) := Geometry.UseVao(s3, "a");
    assert Geometry.Builds(Initial, Some([0, 1, 2]), []);
    assert Geometry.Builds(s2, Some([0, 1, 2]), []);
    assert s3.currentVao == Some("a") && VaoHandle(s3, "a") == Some(0);
    assert c4 == [];
    var run := c1 + c2 + c3;
    assert c1 + c2 + c3 + c4 == run;
    assert run[|run| - 1] == c3[|c3| - 1] == GL.BindVertexArray(None);
    GL.ReplayLastBind(GL.Bindings(None, None), run, |run| - 1);
  }

  /** The same run with the corrected `setVao` rebinds "a" when it is asked for again. */
  lemma SetVaoCorrectedRebinds()
    ensures
      var (s1, c1) := Geometry.SetVao(Initial, "a", Some([0, 1, 2]), []).value;
      var (s2, c2) := Geometry.UseVao(s1, "a");
      var (s3, c3) := Geometry.SetVao(s2, "b", Some([0, 1, 2]), []).value;
      var (s4, c4) := Geometry.UseVao(s3, "a");
      && c4 == [GL.BindVertexArray(Some(0))]
      && GL.Replay(GL.Bindings(None, None), c1 + c2 + c3 + c4).vao == VaoHandle(s4, "a")
  {
  }
}

=== FILE: dispatch.dfy ===
/**
 * Uniform dispatch: the `uniMethod` table (src/Core.ts:4-16) and the upload
 * call `setUniforms` issues for one value.
 */
module Dispatch {
  import opened Results
  import GL

  /** The uniform types a program may declare: the keys of `uniMethod`. */
  datatype UniformType = Int | Float | Vec2 | Vec3 | Vec4 | Mat2 | Mat3 | Mat4 | IVec2 | IVec3 | IVec4

  /** One row of `uniMethod`: the upload method and whether the value is a matrix or an array. */
  datatype MethodEntry = MethodEntry(upload: GL.UniformMethod, isMat: bool, isArray: bool)

  /** Number of components of a GLSL uniform type. */
  function Components(t: UniformType): nat {
    match t
    case Int => 1
    case Float => 1
    case Vec2 => 2
    case Vec3 => 3
    case Vec4 => 4
    case Mat2 => 4
    case Mat3 => 9
    case Mat4 => 16
    case IVec2 => 2
    case IVec3 => 3
    case IVec4 => 4
  }

  predicate IntegerValued(t: UniformType) {
    t == Int || t == IVec2 || t == IVec3 || t == IVec4
  }

  predicate IsMatrix(t: UniformType) {
    t == Mat2 || t == Mat3 || t == Mat4
  }

  /** Number of components one WebGL upload method writes per uniform, read off its name. */
  function Arity(m: GL.UniformMethod): nat {
    match m
    case Uniform1i => 1
    case Uniform1f => 1
    case Uniform2fv => 2
    case Uniform3fv => 3
    case Uniform4fv => 4
    case UniformMatrix2fv => 4
    case UniformMatrix3fv => 9
    case UniformMatrix4fv => 16
    case Uniform2iv => 2
    case Uniform3iv => 3
    case Uniform4iv => 4
  }

  /** The `i` methods upload integers, the `f` methods floats. */
  predicate TakesIntegers(m: GL.UniformMethod) {
    m == GL.Uniform1i || m == GL.Uniform2iv || m == GL.Uniform3iv || m == GL.Uniform4iv
  }

  /** The `Matrix` methods, which take a transpose flag before the value. */
  predicate IsMatrixMethod(m: GL.UniformMethod) {
    m == GL.UniformMatrix2fv || m == GL.UniformMatrix3fv || m == GL.UniformMatrix4fv
  }

  /** The `v` methods, which take the value as a flat array. */
  predicate TakesArray(m: GL.UniformMethod) {
    !(m == GL.Uniform1i || m == GL.Uniform1f)
  }

  /**
   * The `uniMethod` table. Each type is uploaded by the method of matching
   * arity and number kind; exactly the matrix types take the matrix path, and
   * exactly the vector types the array path.
   */
  function UniMethod(t: UniformType): (e: MethodEntry)
    ensures Arity(e.upload) == Components(t)
    ensures TakesIntegers(e.upload) <==> IntegerValued(t)
    ensures e.isMat <==> IsMatrix(t)
    ensures e.isMat <==> IsMatrixMethod(e.upload)
    ensures e.isArray <==> !IsMatrix(t) && Components(t) > 1
    ensures e.isMat || e.isArray <==> TakesArray(e.upload)
  {
    match t
    case Int => MethodEntry(GL.Uniform1i, false, false)
    case Float => MethodEntry(GL.Uniform1f, false, false)
    case Vec2 => MethodEntry(GL.Uniform2fv, false, true)
    case Vec3 => MethodEntry(GL.Uniform3fv, false, true)
    case Vec4 => MethodEntry(GL.Uniform4fv, false, true)
    case Mat2 => MethodEntry(GL.UniformMatrix2fv, true, false)
    case Mat3 => MethodEntry(GL.UniformMatrix3fv, true, false)
    case Mat4 => MethodEntry(GL.UniformMatrix4fv, true, false)
    case IVec2 => MethodEntry(GL.Uniform2iv, false, true)
    case IVec3 => MethodEntry(GL.Uniform3iv, false, true)
    case IVec4 => MethodEntry(GL.Uniform4iv, false, true)
  }

  /**
   * The upload of value `v` of type `t` to location `loc` (null when absent):
   * matrices pass `transpose = false` before the value; vectors and scalars
   * pass the value alone.
   */
  function Upload(t: UniformType, loc: Option<nat>, v: GL.UniformValue): (c: GL.GLCall)
    ensures c.Uniform? && c.uniform == loc && c.value == v
    ensures c.upload == UniMethod(t).upload && (IsMatrixMethod(c.upload) <==> IsMatrix(t))
    ensures Arity(c.upload) == Components(t) && (TakesIntegers(c.upload) <==> IntegerValued(t))
    ensures c.transpose == (if IsMatrix(t) then Some(false) else None)
  {
    var e := UniMethod(t);
    // The array and scalar branches differ only in a type cast: both pass (location, value).
    if e.isMat then GL.Uniform(e.upload, loc, Some(false), v)
    else GL.Uniform(e.upload, loc, None, v)
  }

  /** A `vec3` goes through the vector path (`uniform3fv`), a `mat4` through the matrix path with transpose false. */
  lemma UploadPaths(loc: Option<nat>)
    ensures Upload(Vec3, loc, GL.Numbers([1.0, 2.0, 3.0])) == GL.Uniform(GL.Uniform3fv, loc, None, GL.Numbers([1.0, 2.0, 3.0]))
    ensures forall m: seq<real> :: |m| == 16 ==>
      Upload(Mat4, loc, GL.Numbers(m)) == GL.Uniform(GL.UniformMatrix4fv, loc, Some(false), GL.Numbers(m))
  {
  }
}

=== FILE: elision.dfy ===
/**
 * Bind elision, the pattern shared by the three "currently bound" cells:
 * a bind is issued only when the requested id differs from the cell.
 */
module Elision {
  import opened Results

  /** Whether requesting `id` while `current` is bound issues a bind. */
  predicate Rebinds<T(==)>(current: Option<T>, id: T) {
    current != Some(id)
  }

  /** Binds issued by requesting `ids` in order, starting from `current`. */
  function Switches<T(==)>(current: Option<T>, ids: seq<T>): nat
    decreases |ids|
  {
    if |ids| == 0 then 0
    else (if Rebinds(current, ids[0]) then 1 else 0) + Switches(Some(ids[0]), ids[1..])
  }

  /** Number of maximal runs of equal consecutive ids. */
  function Runs<T(==)>(ids: seq<T>): nat {
    if |ids| <= 1 then |ids|
    else Runs(ids[1..]) + (if ids[0] != ids[1] then 1 else 0)
  }

  /**
   * From the unbound state, one bind is issued per maximal run of identical
   * ids; a leading run that repeats the bound id issues none.
   */
  lemma {:induction false} SwitchesCountRuns<T>(current: Option<T>, ids: seq<T>)
    ensures current.None? ==> Switches(current, ids) == Runs(ids)
    ensures |ids| > 0 && current == Some(ids[0]) ==> Switches(current, ids) == Runs(ids) - 1
    ensures |ids| > 0 && current.Some? && current != Some(ids[0]) ==> Switches(current, ids) == Runs(ids)
    decreases |ids|
  {
    if |ids| > 1 {
      SwitchesCountRuns(Some(ids[0]), ids[1..]);
      assert ids[1..][0] == ids[1];
    }
  }
}

=== FILE: geometry.dfy ===
/**
 * Geometry registry and draw dispatch: `enableAttribute`, `getStrideSize`,
 * `setVao`, `useVao`, `createInstancedVbo`, `updateInstancedVbo`, `render`
 * and `renderInstanced` of src/Core.ts.
 */
module Geometry {
  import opened Results
  import opened CoreState
  import opened Layout
  import GL
  import Elision

  /**
   * `enableAttribute`: throws for a name no program declared; otherwise
   * enables and describes each slot of the attribute's layout
   * (`Layout.AttributeSlots`: slot `i` at location `L + i`, `SlotWidth` floats
   * wide, `ByteStride` bytes per vertex, `i * SlotWidth * 4` bytes in), so that
   * exactly the locations `L .. L + Slots - 1` are enabled.
   */
  function EnableAttribute(s: Core, att: AttributeName): (r: Result<seq<GL.GLCall>, Error>)
    ensures r.Err? <==> att !in s.attributes
    ensures r.Err? ==> r.error == MissingStride(att)
    ensures r.Ok? ==> r.value == PointerCalls(AttributeSlots(s.attributes[att].location, s.attributes[att].stride))
    ensures r.Ok? ==> Enabled(r.value) == Range(s.attributes[att].location, Slots(s.attributes[att].stride))
    ensures r.Ok? ==> KeepsBindings(r.value)
  {
    if att !in s.attributes then Err(MissingStride(att))
    else
      var a := s.attributes[att];
      EnabledSlots(a.location, a.stride);
      Ok(PointerCalls(AttributeSlots(a.location, a.stride)))
  }

  /** An attribute array as `setVao` receives it; `None` is an `undefined` value, which is skipped. */
  type AttributeArray = (AttributeName, Option<seq<real>>)

  predicate Present(list: seq<AttributeArray>, i: int) {
    0 <= i < |list| && list[i].1.Some?
  }

  /** Whether location `l` is one of the slots of a present, resolved attribute of `list`. */
  ghost predicate Occupies(s: Core, list: seq<AttributeArray>, l: int) {
    exists i :: 0 <= i < |list| && Present(list, i) && list[i].0 in s.attributes &&
      l in Range(s.attributes[list[i].0].location, Slots(s.attributes[list[i].0].stride))
  }

  /** Calls that leave the driver's program and vertex-array bindings alone. */
  predicate KeepsBindings(calls: seq<GL.GLCall>) {
    forall i :: 0 <= i < |calls| ==> !calls[i].UseProgram? && !calls[i].BindVertexArray?
  }

  lemma KeepsBindingsAppend(a: seq<GL.GLCall>, b: seq<GL.GLCall>)
    requires KeepsBindings(a) && KeepsBindings(b)
    ensures KeepsBindings(a + b)
  {
    assert forall i :: |a| <= i < |a + b| ==> (a + b)[i] == b[i - |a|];
  }

  /** The slot locations of the present, resolved attributes of `list`, collected in order. */
  function OccupiedBy(s: Core, list: seq<AttributeArray>): set<int>
    decreases |list|
  {
    if |list| == 0 then {}
    else
      var own := if list[0].1.Some? && list[0].0 in s.attributes
        then Range(s.attributes[list[0].0].location, Slots(s.attributes[list[0].0].stride)) else {};
      own + OccupiedBy(s, list[1..])
  }

  /** `OccupiedBy` holds exactly the locations some present, resolved attribute occupies. */
  lemma {:induction false} OccupiedByMembers(s: Core, list: seq<AttributeArray>, l: int)
    ensures l in OccupiedBy(s, list) <==> Occupies(s, list, l)
    decreases |list|
  {
    if |list| > 0 {
      OccupiedByMembers(s, list[1..], l);
      if Occupies(s, list[1..], l) {
        var j :| 0 <= j < |list| - 1 && Present(list[1..], j) && list[1..][j].0 in s.attributes &&
          l in Range(s.attributes[list[1..][j].0].location, Slots(s.attributes[list[1..][j].0].stride));
        assert Present(list, j + 1) && list[j + 1] == list[1..][j];
      }
      if Occupies(s, list, l) {
        var i :| 0 <= i < |list| && Present(list, i) && list[i].0 in s.attributes &&
          l in Range(s.attributes[list[i].0].location, Slots(s.attributes[list[i].0].stride));
        if i > 0 {
          assert Present(list[1..], i - 1) && list[1..][i - 1] == list[i];
        }
      }
    }
  }

  /** Whether some present attribute of `list` has no stored stride. */
  predicate Unresolved(s: Core, list: seq<AttributeArray>) {
    exists i :: 0 <= i < |list| && Present(list, i) && list[i].0 !in s.attributes
  }

  /** Entry `i` is the first array given with values whose name has no stored stride. */
  predicate FirstUnresolved(s: Core, list: seq<AttributeArray>, i: int) {
    && Present(list, i) && list[i].0 !in s.attributes
    && forall j :: 0 <= j < i ==> !(Present(list, j) && list[j].0 !in s.attributes)
  }

  /** `Unresolved` splits into the first entry and the rest. */
  lemma UnresolvedSplit(s: Core, list: seq<AttributeArray>)
    requires |list| > 0
    ensures Unresolved(s, list) <==> (list[0].1.Some? && list[0].0 !in s.attributes) || Unresolved(s, list[1..])
  {
    if Unresolved(s, list[1..]) {
      var j :| 0 <= j < |list| - 1 && Present(list[1..], j) && list[1..][j].0 !in s.attributes;
      assert Present(list, j + 1) && list[j + 1] == list[1..][j];
    }
    if Unresolved(s, list) {
      var i :| 0 <= i < |list| && Present(list, i) && list[i].0 !in s.attributes;
      if i > 0 { assert Present(list[1..], i - 1) && list[1..][i - 1] == list[i]; }
    }
  }

  /** The number of arrays given with values: one buffer is created for each. */
  function PresentCount(list: seq<AttributeArray>): nat
    decreases |list|
  {
    if |list| == 0 then 0 else (if list[0].1.Some? then 1 else 0) + PresentCount(list[1..])
  }

  /**
   * What `setVao`'s loop issues for one array whose buffer is `vbo`: the buffer
   * bound and filled with the values, then the attribute's `enableAttribute`
   * calls. An `undefined` array issues nothing.
   */
  function ArrayCalls(s: Core, entry: AttributeArray, vbo: nat): seq<GL.GLCall> {
    if entry.1.Some? && entry.0 in s.attributes then
      var a := s.attributes[entry.0];
      [GL.BindBuffer(GL.ArrayBuffer, Some(vbo)), GL.BufferData(GL.ArrayBuffer, |entry.1.value|, GL.StaticDraw)]
        + PointerCalls(AttributeSlots(a.location, a.stride))
    else []
  }

  /** Each array's calls in order, buffers numbered from `next` in the order they are created. */
  function ArraysCalls(s: Core, list: seq<AttributeArray>, next: nat): seq<GL.GLCall>
    decreases |list|
  {
    if |list| == 0 then []
    else ArrayCalls(s, list[0], next) + ArraysCalls(s, list[1..], next + (if list[0].1.Some? then 1 else 0))
  }

  /**
   * Splitting the array list anywhere: the front part's calls come first, and
   * the rest's buffers are numbered after the front part's arrays with values.
   */
  lemma {:induction false} ArraysCallsAppend(s: Core, a: seq<AttributeArray>, b: seq<AttributeArray>, next: nat)
    ensures ArraysCalls(s, a + b, next) == ArraysCalls(s, a, next) + ArraysCalls(s, b, next + PresentCount(a))
    ensures PresentCount(a + b) == PresentCount(a) + PresentCount(b)
    decreases |a|
  {
    if |a| > 0 {
      var own := if a[0].1.Some? then 1 else 0;
      assert (a + b)[0] == a[0] && (a + b)[1..] == a[1..] + b;
      ArraysCallsAppend(s, a[1..], b, next + own);
    } else {
      assert a + b == b;
    }
  }

  /**
   * The attribute loop of `setVao`. Throws at the first array with values
   * whose name has no stride; otherwise each array's calls follow in order,
   * with one fresh buffer per array given with values (`UploadAttributesCalls`).
   */
  function UploadAttributes(s: Core, list: seq<AttributeArray>, next: nat): (r: Result<(nat, seq<GL.GLCall>), Error>)
    ensures r.Err? <==> Unresolved(s, list)
    ensures r.Err? ==> r.error.MissingStride? && r.error.name !in s.attributes
    decreases |list|
  {
    if |list| == 0 then Ok((next, []))
    else
      var (name, values) := list[0];
      UnresolvedSplit(s, list);
      if values.Some? && name !in s.attributes then Err(MissingStride(name))
      else
        var rest :- UploadAttributes(s, list[1..], next + (if values.Some? then 1 else 0));
        Ok((rest.0, ArrayCalls(s, list[0], next) + rest.1))
  }

  /** The loop throws at the first array given with values whose name has no stride, naming it. */
  lemma {:induction false} UploadAttributesFirstError(s: Core, list: seq<AttributeArray>, next: nat, i: nat)
    requires FirstUnresolved(s, list, i)
    ensures UploadAttributes(s, list, next) == Err(MissingStride(list[i].0))
    decreases i
  {
    if i > 0 {
      assert !(Present(list, 0) && list[0].0 !in s.attributes);
      forall j | 0 <= j < i - 1
        ensures !(Present(list[1..], j) && list[1..][j].0 !in s.attributes)
      {
        assert !(Present(list, j + 1) && list[j + 1].0 !in s.attributes);
      }
      assert list[1..][i - 1] == list[i];
      UploadAttributesFirstError(s, list[1..], next + (if list[0].1.Some? then 1 else 0), i - 1);
    }
  }

  /**
   * When the attribute loop succeeds, its calls are each array's calls in
   * order, and it takes one fresh handle per array given with values.
   */
  lemma {:induction false} UploadAttributesCalls(s: Core, list: seq<AttributeArray>, next: nat)
    requires !Unresolved(s, list)
    ensures UploadAttributes(s, list, next).Ok?
    ensures UploadAttributes(s, list, next).value.0 == next + PresentCount(list)
    ensures UploadAttributes(s, list, next).value.1 == ArraysCalls(s, list, next)
    decreases |list|
  {
    if |list| > 0 {
      UnresolvedSplit(s, list);
      UploadAttributesCalls(s, list[1..], next + (if list[0].1.Some? then 1 else 0));
    }
  }

  /**
   * One array's calls never bind a program or a vertex array, and they enable
   * exactly its attribute's slots when it is given with values and declared.
   */
  lemma ArrayCallsEffect(s: Core, entry: AttributeArray, vbo: nat)
    ensures KeepsBindings(ArrayCalls(s, entry, vbo))
    ensures Enabled(ArrayCalls(s, entry, vbo)) ==
      if entry.1.Some? && entry.0 in s.attributes
      then Range(s.attributes[entry.0].location, Slots(s.attributes[entry.0].stride)) else {}
  {
    if entry.1.Some? && entry.0 in s.attributes {
      var a := s.attributes[entry.0];
      var upload := [GL.BindBuffer(GL.ArrayBuffer, Some(vbo)), GL.BufferData(GL.ArrayBuffer, |entry.1.value|, GL.StaticDraw)];
      KeepsBindingsAppend(upload, PointerCalls(AttributeSlots(a.location, a.stride)));
      EnabledSlots(a.location, a.stride);
      EnabledAppend(upload, PointerCalls(AttributeSlots(a.location, a.stride)));
      assert Enabled(upload) == {};
    } else {
      assert Enabled(ArrayCalls(s, entry, vbo)) == {};
    }
  }

  /** The attribute loop never binds a program or a vertex array. */
  lemma {:induction false} LoopKeepsBindings(s: Core, list: seq<AttributeArray>, next: nat)
    ensures KeepsBindings(ArraysCalls(s, list, next))
    decreases |list|
  {
    if |list| > 0 {
      var rest := ArraysCalls(s, list[1..], next + (if list[0].1.Some? then 1 else 0));
      LoopKeepsBindings(s, list[1..], next + (if list[0].1.Some? then 1 else 0));
      ArrayCallsEffect(s, list[0], next);
      KeepsBindingsAppend(ArrayCalls(s, list[0], next), rest);
    }
  }

  /** The attribute loop enables exactly the slots of the declared attributes given with values. */
  lemma {:induction false} LoopEnables(s: Core, list: seq<AttributeArray>, next: nat)
    ensures Enabled(ArraysCalls(s, list, next)) == OccupiedBy(s, list)
    decreases |list|
  {
    if |list| > 0 {
      var rest := ArraysCalls(s, list[1..], next + (if list[0].1.Some? then 1 else 0));
      LoopEnables(s, list[1..], next + (if list[0].1.Some? then 1 else 0));
      ArrayCallsEffect(s, list[0], next);
      EnabledAppend(ArrayCalls(s, list[0], next), rest);
    }
  }

  /**
   * The draw count `setVao` records: the index length, or else the first
   * attribute's value count divided by its stride size (`getStrideSize`).
   * Reading the first entry of an empty or `undefined` attribute throws.
   */
  function DrawCount(s: Core, index: Option<seq<int>>, list: seq<AttributeArray>): (r: Result<real, Error>)
    ensures r.Err? <==> index.None? && (|list| == 0 || list[0].1.None? || list[0].0 !in s.attributes)
    ensures r.Ok? && index.Some? ==> r.value == |index.value| as real
    ensures r.Ok? && index.None? ==>
      r.value * StrideSize(s.attributes[list[0].0].stride) as real == |list[0].1.value| as real
  {
    if index.Some? then Ok(|index.value| as real)
    else if |list| == 0 || list[0].1.None? then Err(NoFirstAttribute)
    else if list[0].0 !in s.attributes then Err(MissingStride(list[0].0))
    else Ok(|list[0].1.value| as real / StrideSize(s.attributes[list[0].0].stride) as real)
  }

  /**
   * Whether `setVao` succeeds: every array given with values is declared, and
   * there is an index array or a first attribute with values to count.
   */
  predicate Builds(s: Core, index: Option<seq<int>>, list: seq<AttributeArray>) {
    && (forall i :: 0 <= i < |list| && list[i].1.Some? ==> list[i].0 in s.attributes)
    && (index.Some? || (|list| > 0 && list[0].1.Some?))
  }

  /** `setVao` succeeds exactly when the attribute loop and the draw count both do. */
  lemma BuildsExactly(s: Core, index: Option<seq<int>>, list: seq<AttributeArray>)
    ensures Builds(s, index, list) <==> !Unresolved(s, list) && DrawCount(s, index, list).Ok?
  {
    if !Unresolved(s, list) {
      forall i | 0 <= i < |list| && list[i].1.Some? ensures list[i].0 in s.attributes {
        assert Present(list, i);
      }
    }
  }

  /**
   * `setVao` as written: binds a fresh vertex array, uploads and enables every
   * present attribute, uploads the index array if any, unbinds the vertex array
   * and registers the geometry with its draw count. The `currentVao` cell is
   * left as it was, although the driver now has no vertex array bound.
   */
  function SetVaoAsWritten(s: Core, id: VaoId, index: Option<seq<int>>, list: seq<AttributeArray>)
    : (r: Result<(Core, seq<GL.GLCall>), Error>)
    ensures r.Ok? <==> Builds(s, index, list)
    ensures Unresolved(s, list) ==> r.Err? && r.error.MissingStride? && r.error.name !in s.attributes
    ensures !Unresolved(s, list) && r.Err? ==> r.error == NoFirstAttribute
    ensures r.Ok? ==> r.value == BuildVao(s, id, index, list)
  {
    BuildsExactly(s, index, list);
    var up :- UploadAttributes(s, list, s.nextHandle + 1);
    var count :- DrawCount(s, index, list);
    Ok(BuildVao(s, id, index, list))
  }

  /**
   * A `setVao` that succeeds: the new vertex array gets a fresh handle and the
   * `DrawCount` of its arrays, only this id's entry changes, one handle is
   * taken per buffer, and the calls are `VaoCalls`: bracketed by the bind and
   * unbind of the new vertex array, touching no other binding, and enabling
   * exactly the slots the declared attributes given with values occupy.
   */
  function BuildVao(s: Core, id: VaoId, index: Option<seq<int>>, list: seq<AttributeArray>): (r: (Core, seq<GL.GLCall>))
    requires Builds(s, index, list)
    ensures DrawCount(s, index, list).Ok?
    ensures id in r.0.vaos && r.0.vaos[id] == Geometry(s.nextHandle, DrawCount(s, index, list).value)
    ensures r.0 == s.(vaos := r.0.vaos, nextHandle := r.0.nextHandle)
    ensures forall other :: other != id ==> (other in r.0.vaos <==> other in s.vaos)
    ensures forall other :: other != id && other in s.vaos ==> r.0.vaos[other] == s.vaos[other]
    ensures r.0.nextHandle > s.nextHandle
    ensures r.0.nextHandle == IndexUpload(index, s.nextHandle + 1 + PresentCount(list)).0
    ensures
      && |r.1| >= 2
      && r.1[0] == GL.BindVertexArray(Some(s.nextHandle))
      && r.1[|r.1| - 1] == GL.BindVertexArray(None)
      && KeepsBindings(r.1[1..|r.1| - 1])
    ensures Enabled(r.1) == OccupiedBy(s, list)
    ensures r.1 == VaoCalls(s, index, list)
  {
    BuildsExactly(s, index, list);
    VaoCallsShape(s, index, list);
    var h := s.nextHandle;
    var count := DrawCount(s, index, list).value;
    (s.(vaos := s.vaos[id := Geometry(h, count)], nextHandle := IndexUpload(index, h + 1 + PresentCount(list)).0), VaoCalls(s, index, list))
  }

  /**
   * The calls of `setVao` bind the fresh vertex array first and unbind it
   * last, touch no other binding in between, and enable exactly the slots
   * of the declared attributes given with values.
   */
  lemma {:induction false} VaoCallsShape(s: Core, index: Option<seq<int>>, list: seq<AttributeArray>)
    ensures var calls := VaoCalls(s, index, list);
      && |calls| >= 2
      && calls[0] == GL.BindVertexArray(Some(s.nextHandle))
      && calls[|calls| - 1] == GL.BindVertexArray(None)
      && KeepsBindings(calls[1..|calls| - 1])
      && Enabled(calls) == OccupiedBy(s, list)
  {
    var h := s.nextHandle;
    var attributes := ArraysCalls(s, list, h + 1);
    var indexCalls := IndexUpload(index, h + 1 + PresentCount(list)).1;
    var calls := Bracket(h, attributes + indexCalls);
    assert VaoCalls(s, index, list) == calls;
    assert KeepsBindings(calls[1..|calls| - 1]) by {
      LoopKeepsBindings(s, list, h + 1);
      KeepsBindingsAppend(attributes, indexCalls);
    }
    assert Enabled(calls) == OccupiedBy(s, list) by {
      LoopEnables(s, list, h + 1);
      EnabledAppend(attributes, indexCalls);
    }
  }

  /**
   * The calls `setVao` issues: bind the fresh vertex array, the attribute
   * loop (buffers numbered from the next handle), the index upload, unbind.
   */
  function VaoCalls(s: Core, index: Option<seq<int>>, list: seq<AttributeArray>): seq<GL.GLCall> {
    var h := s.nextHandle;
    Bracket(h, ArraysCalls(s, list, h + 1) + IndexUpload(index, h + 1 + PresentCount(list)).1)
  }

  /**
   * The vertex array `setVao` builds has location `l` enabled exactly when
   * some attribute array given with values is declared and occupies `l`.
   */
  lemma SetVaoEnablesOccupied(s: Core, id: VaoId, index: Option<seq<int>>, list: seq<AttributeArray>, l: int)
    requires Builds(s, index, list)
    ensures l in Enabled(SetVaoAsWritten(s, id, index, list).value.1) <==> Occupies(s, list, l)
  {
    OccupiedByMembers(s, list, l);
  }

  /** The index-buffer upload of `setVao`, if an index array is given, and the next free handle. */
  function IndexUpload(index: Option<seq<int>>, buffer: nat): (r: (nat, seq<GL.GLCall>))
    ensures KeepsBindings(r.1) && Enabled(r.1) == {}
    ensures index.None? ==> r.0 == buffer && r.1 == []
    ensures index.Some? ==> r.0 == buffer + 1
    ensures index.Some? ==> r.1 == [GL.BindBuffer(GL.ElementArrayBuffer, Some(buffer)), GL.BufferData(GL.ElementArrayBuffer, |index.value|, GL.StaticDraw)]
  {
    if index.None? then (buffer, [])
    else
      var calls := [GL.BindBuffer(GL.ElementArrayBuffer, Some(buffer)), GL.BufferData(GL.ElementArrayBuffer, |index.value|, GL.StaticDraw)];
      assert forall c :: c in calls ==> !c.EnableAttrib?;
      (buffer + 1, calls)
  }

  /** `body` between binding the vertex array `handle` and unbinding it. */
  function Bracket(handle: nat, body: seq<GL.GLCall>): (calls: seq<GL.GLCall>)
    ensures |calls| == |body| + 2
    ensures calls[0] == GL.BindVertexArray(Some(handle)) && calls[|calls| - 1] == GL.BindVertexArray(None)
    ensures calls[1..|calls| - 1] == body
    ensures Enabled(calls) == Enabled(body)
    ensures forall c :: c in body ==> c in calls
  {
    var calls := [GL.BindVertexArray(Some(handle))] + body + [GL.BindVertexArray(None)];
    EnabledAppend([GL.BindVertexArray(Some(handle))], body);
    EnabledAppend([GL.BindVertexArray(Some(handle))] + body, [GL.BindVertexArray(None)]);
    assert Enabled([GL.BindVertexArray(Some(handle))]) == {};
    assert Enabled([GL.BindVertexArray(None)]) == {};
    assert calls[1..|calls| - 1] == body;
    calls
  }

  /**
   * `setVao`, corrected (see the findings): as written, but the `currentVao`
   * cell is cleared, since the vertex array bound before the call is no longer
   * bound afterwards.
   */
  function SetVao(s: Core, id: VaoId, index: Option<seq<int>>, list: seq<AttributeArray>)
    : (r: Result<(Core, seq<GL.GLCall>), Error>)
    ensures r.Ok? <==> Builds(s, index, list)
    ensures r.Err? ==> r == SetVaoAsWritten(s, id, index, list)
    ensures Unresolved(s, list) ==> r.Err? && r.error.MissingStride? && r.error.name !in s.attributes
    ensures !Unresolved(s, list) && r.Err? ==> r.error == NoFirstAttribute
    ensures r.Ok? ==>
      var w := SetVaoAsWritten(s, id, index, list).value;
      r.value.1 == w.1 && r.value.0 == w.0.(currentVao := None)
    ensures r.Ok? ==> r.value.0.currentVao == None
    ensures r.Ok? ==> r.value.0.vaos[id] == Geometry(s.nextHandle, DrawCount(s, index, list).value)
    ensures r.Ok? ==> r.value.1 == VaoCalls(s, index, list)
  {
    var w :- SetVaoAsWritten(s, id, index, list);
    Ok((w.0.(currentVao := None), w.1))
  }

  /**
   * Both versions of `setVao` throw the stride error of the first array given
   * with values whose name has no stored stride, before anything else is checked.
   */
  lemma SetVaoFirstError(s: Core, id: VaoId, index: Option<seq<int>>, list: seq<AttributeArray>, i: nat)
    requires FirstUnresolved(s, list, i)
    ensures SetVaoAsWritten(s, id, index, list) == Err(MissingStride(list[i].0))
    ensures SetVao(s, id, index, list) == Err(MissingStride(list[i].0))
  {
    UploadAttributesFirstError(s, list, s.nextHandle + 1, i);
  }

  /**
   * `useVao`: binds the vertex array only when `id` is not the current one;
   * afterwards `id` is current. Nothing else changes.
   */
  function UseVao(s: Core, id: VaoId): (r: (Core, seq<GL.GLCall>))
    ensures r.0.currentVao == Some(id)
    ensures r.0.(currentVao := s.currentVao) == s
    ensures Elision.Rebinds(s.currentVao, id) ==> r.1 == [GL.BindVertexArray(VaoHandle(s, id))]
    ensures !Elision.Rebinds(s.currentVao, id) ==> r.1 == []
  {
    if s.currentVao != Some(id) then (s.(currentVao := Some(id)), [GL.BindVertexArray(VaoHandle(s, id))])
    else (s, [])
  }

  /** A sequence of `useVao` calls: the final state and all calls issued. */
  function UseVaos(s: Core, ids: seq<VaoId>): (Core, seq<GL.GLCall>)
    decreases |ids|
  {
    if |ids| == 0 then (s, [])
    else
      var (s1, c1) := UseVao(s, ids[0]);
      var (s2, c2) := UseVaos(s1, ids[1..]);
      (s2, c1 + c2)
  }

  /** One vertex-array bind per switch of id over any sequence of requests. */
  lemma {:induction false} UseVaosBindOncePerRun(s: Core, ids: seq<VaoId>)
    ensures |UseVaos(s, ids).1| == Elision.Switches(s.currentVao, ids)
    ensures forall c :: c in UseVaos(s, ids).1 ==> c.BindVertexArray?
    ensures |ids| > 0 ==> UseVaos(s, ids).0.currentVao == Some(ids[|ids| - 1])
    decreases |ids|
  {
    if |ids| > 0 {
      var (s1, c1) := UseVao(s, ids[0]);
      UseVaosBindOncePerRun(s1, ids[1..]);
      if |ids| > 1 {
        assert ids[1..][|ids[1..]| - 1] == ids[|ids| - 1];
      }
    }
  }

  /** Locations given a divisor by a call sequence. */
  function Divided(calls: seq<GL.GLCall>): set<int> {
    set c | c in calls && c.Divisor? :: c.location
  }

  /** Divisor 1 on locations `location .. location + n - 1`, in loop order. */
  function DivisorRun(location: int, n: nat): (calls: seq<GL.GLCall>)
    ensures |calls| == n
    ensures forall i :: 0 <= i < n ==> calls[i] == GL.Divisor(location + i, 1)
    decreases n
  {
    if n == 0 then [] else DivisorRun(location, n - 1) + [GL.Divisor(location + n - 1, 1)]
  }

  /**
   * The divisor calls of `createInstancedVbo`: one on the first slot, then one
   * per slot (so the first slot is set twice). Exactly the attribute's slots get
   * divisor 1.
   */
  function InstanceDivisors(a: Attribute): (calls: seq<GL.GLCall>)
    ensures forall c :: c in calls ==> c.Divisor? && c.divisor == 1
    ensures Divided(calls) == Range(a.location, Slots(a.stride))
  {
    var run := match a.stride
      case Unit(_) => [GL.Divisor(a.location, 1)]
      case Matrix(rows, _) => DivisorRun(a.location, rows);
    var calls := [GL.Divisor(a.location, 1)] + run;
    assert forall c :: c in calls ==> c.Divisor? && c.divisor == 1 by {
      forall c | c in calls ensures c.Divisor? && c.divisor == 1 {
        var k :| 0 <= k < |calls| && calls[k] == c;
        if k > 0 { assert c == run[k - 1]; }
      }
    }
    forall l | l in Range(a.location, Slots(a.stride)) ensures l in Divided(calls) {
      assert calls[1 + (l - a.location)] == GL.Divisor(l, 1);
    }
    forall l | l in Divided(calls) ensures l in Range(a.location, Slots(a.stride)) {
      var k :| 0 <= k < |calls| && calls[k].Divisor? && calls[k].location == l;
      if k > 0 { assert calls[k] == run[k - 1]; }
    }
    calls
  }

  /**
   * `createInstancedVbo`: first the `useVao(id)` elision, then a fresh dynamic
   * buffer holding `array`, then divisor 1 on every slot of the attribute.
   * Returns the buffer handle. An attribute no program declared throws.
   */
  function CreateInstancedVbo(s: Core, id: VaoId, att: AttributeName, values: seq<real>)
    : (r: Result<(Core, seq<GL.GLCall>, nat), Error>)
    ensures r.Err? <==> att !in s.attributes
    ensures r.Err? ==> r.error == MissingStride(att)
    ensures r.Ok? ==> r.value.0 == UseVao(s, id).0.(nextHandle := s.nextHandle + 1)
    ensures r.Ok? ==> r.value.2 == s.nextHandle
    ensures r.Ok? ==>
      var binds := UseVao(s, id).1;
      && |binds| <= |r.value.1|
      && r.value.1[..|binds|] == binds
      && KeepsBindings(r.value.1[|binds|..])
    ensures r.Ok? ==> Divided(r.value.1) == Range(s.attributes[att].location, Slots(s.attributes[att].stride))
    ensures r.Ok? ==> forall c :: c in r.value.1 && c.Divisor? ==> c.divisor == 1
    ensures r.Ok? ==> r.value.1 == UseVao(s, id).1 + InstanceUpload(s.attributes[att], r.value.2, |values|)
  {
    var (s1, binds) := UseVao(s, id);
    if att !in s1.attributes then Err(MissingStride(att))
    else
      var vbo := s1.nextHandle;
      var tail := InstanceUpload(s1.attributes[att], vbo, |values|);
      InstanceUploadDivides(s1.attributes[att], vbo, |values|);
      AfterBinds(binds, tail);
      Ok((s1.(nextHandle := vbo + 1), binds + tail, vbo))
  }

  /** Vertex-array binds followed by `tail`: the binds add no divisor and stay in front. */
  lemma AfterBinds(binds: seq<GL.GLCall>, tail: seq<GL.GLCall>)
    requires forall c :: c in binds ==> c.BindVertexArray?
    ensures (binds + tail)[..|binds|] == binds && (binds + tail)[|binds|..] == tail
    ensures Divided(binds + tail) == Divided(tail)
    ensures forall c :: c in binds + tail && c.Divisor? ==> c in tail
  {
    DividedAppend(binds, tail);
    assert Divided(binds) == {};
  }

  /** Vertex-array binds followed by `tail` enable what `tail` enables. */
  lemma AfterBindsEnabled(binds: seq<GL.GLCall>, tail: seq<GL.GLCall>)
    requires forall c :: c in binds ==> c.BindVertexArray?
    ensures Enabled(binds + tail) == Enabled(tail)
  {
    EnabledAppend(binds, tail);
    assert Enabled(binds) == {};
  }

  lemma DividedAppend(a: seq<GL.GLCall>, b: seq<GL.GLCall>)
    ensures Divided(a + b) == Divided(a) + Divided(b)
  {
    assert forall c :: c in a + b <==> c in a || c in b;
  }

  /** The buffer upload and divisor calls of `createInstancedVbo`, after its `useVao`. */
  function InstanceUpload(a: Attribute, vbo: nat, length: nat): (calls: seq<GL.GLCall>)
    ensures KeepsBindings(calls)
    ensures |calls| >= 3
    ensures calls[..2] == [GL.BindBuffer(GL.ArrayBuffer, Some(vbo)), GL.BufferData(GL.ArrayBuffer, length, GL.DynamicDraw)]
    ensures calls[2..|calls| - 1] == InstanceDivisors(a)
    ensures calls[|calls| - 1] == GL.BindBuffer(GL.ArrayBuffer, None)
  {
    var upload := [GL.BindBuffer(GL.ArrayBuffer, Some(vbo)), GL.BufferData(GL.ArrayBuffer, length, GL.DynamicDraw)];
    var divisors := InstanceDivisors(a);
    var unbind := [GL.BindBuffer(GL.ArrayBuffer, None)];
    assert KeepsBindings(divisors) by {
      assert forall i :: 0 <= i < |divisors| ==> divisors[i] in divisors;
    }
    KeepsBindingsAppend(upload, divisors);
    KeepsBindingsAppend(upload + divisors, unbind);
    assert (upload + divisors + unbind)[2..|upload + divisors + unbind| - 1] == divisors;
    upload + divisors + unbind
  }

  /** The instanced upload gives divisor 1, and only 1, to exactly the attribute's slots. */
  lemma InstanceUploadDivides(a: Attribute, vbo: nat, length: nat)
    ensures Divided(InstanceUpload(a, vbo, length)) == Range(a.location, Slots(a.stride))
    ensures forall c :: c in InstanceUpload(a, vbo, length) && c.Divisor? ==> c.divisor == 1
  {
    var calls := InstanceUpload(a, vbo, length);
    var upload, divisors, unbind := calls[..2], calls[2..|calls| - 1], calls[|calls| - 1..];
    assert calls == upload + divisors + unbind;
    assert Divided(upload) == {} && Divided(unbind) == {} by {
      assert forall c: GL.GLCall :: c in upload + unbind ==> !c.Divisor?;
    }
    DividedAppend(upload, divisors);
    DividedAppend(upload + divisors, unbind);
    assert forall c: GL.GLCall :: c in calls && c.Divisor? ==> c in divisors;
  }

  /**
   * `updateInstancedVbo`: the `useVao(id)` elision, a full re-upload of the
   * buffer, then the attribute's slots enabled and described again. An
   * attribute no program declared throws.
   */
  function UpdateInstancedVbo(s: Core, id: VaoId, att: AttributeName, values: seq<real>, vbo: nat)
    : (r: Result<(Core, seq<GL.GLCall>), Error>)
    ensures r.Err? <==> att !in s.attributes
    ensures r.Err? ==> r.error == MissingStride(att)
    ensures r.Ok? ==> r.value.0 == UseVao(s, id).0
    ensures r.Ok? ==>
      var binds := UseVao(s, id).1;
      && |binds| + 2 <= |r.value.1|
      && r.value.1[..|binds|] == binds
      && r.value.1[|binds|] == GL.BindBuffer(GL.ArrayBuffer, Some(vbo))
      && r.value.1[|binds| + 1] == GL.BufferSubData(GL.ArrayBuffer, |values|)
      && KeepsBindings(r.value.1[|binds|..])
    ensures r.Ok? ==>
      var a := s.attributes[att];
      r.value.1 == UseVao(s, id).1 + Reupload(vbo, |values|, PointerCalls(AttributeSlots(a.location, a.stride)))
    ensures r.Ok? ==> Enabled(r.value.1) == Range(s.attributes[att].location, Slots(s.attributes[att].stride))
  {
    var (s1, binds) := UseVao(s, id);
    var enable :- EnableAttribute(s1, att);
    var tail := Reupload(vbo, |values|, enable);
    AfterBinds(binds, tail);
    AfterBindsEnabled(binds, tail);
    Ok((s1, binds + tail))
  }

  /** The buffer re-upload of `updateInstancedVbo` followed by the attribute's pointer calls. */
  function Reupload(vbo: nat, length: nat, enable: seq<GL.GLCall>): (calls: seq<GL.GLCall>)
    requires KeepsBindings(enable)
    ensures |calls| == |enable| + 2
    ensures calls[0] == GL.BindBuffer(GL.ArrayBuffer, Some(vbo)) && calls[1] == GL.BufferSubData(GL.ArrayBuffer, length)
    ensures calls[2..] == enable
    ensures KeepsBindings(calls)
    ensures Enabled(calls) == Enabled(enable)
  {
    var upload := [GL.BindBuffer(GL.ArrayBuffer, Some(vbo)), GL.BufferSubData(GL.ArrayBuffer, length)];
    KeepsBindingsAppend(upload, enable);
    EnabledAppend(upload, enable);
    assert Enabled(upload) == {};
    assert (upload + enable)[2..] == enable;
    upload + enable
  }

  /** The geometry a draw uses: that of the current vertex array. */
  function CurrentGeometry(s: Core): Result<Geometry, Error> {
    if s.currentVao.Some? && s.currentVao.value in s.vaos then Ok(s.vaos[s.currentVao.value])
    else Err(NoCurrentVao)
  }

  /**
   * `render`: one indexed or non-indexed draw of the current geometry's stored
   * count; with no registered geometry current the count lookup throws.
   */
  function Render(s: Core, mode: GL.Primitive, drawElements: bool): (r: Result<seq<GL.GLCall>, Error>)
    ensures r.Err? <==> s.currentVao.None? || s.currentVao.value !in s.vaos
    ensures r.Ok? ==>
      var count := s.vaos[s.currentVao.value].count;
      r.value == [if drawElements then GL.DrawElements(mode, count) else GL.DrawArrays(mode, 0, count)]
  {
    var g :- CurrentGeometry(s);
    if drawElements then Ok([GL.DrawElements(mode, g.count)])
    else Ok([GL.DrawArrays(mode, 0, g.count)])
  }

  /** `renderInstanced`: one indexed, instanced triangle draw of the current geometry's count. */
  function RenderInstanced(s: Core, instances: int): (r: Result<seq<GL.GLCall>, Error>)
    ensures r.Err? <==> s.currentVao.None? || s.currentVao.value !in s.vaos
    ensures r.Ok? ==> r.value == [GL.DrawElementsInstanced(GL.Triangles, s.vaos[s.currentVao.value].count, instances)]
  {
    var g :- CurrentGeometry(s);
    Ok([GL.DrawElementsInstanced(GL.Triangles, g.count, instances)])
  }

  /**
   * Building a geometry and selecting it: the selection binds the new vertex
   * array (the corrected `setVao` left no vertex array current), and a draw,
   * instanced or not, then uses the count `setVao` computed.
   */
  lemma SetVaoThenRender(s: Core, id: VaoId, index: Option<seq<int>>, list: seq<AttributeArray>,
                         mode: GL.Primitive, drawElements: bool, instances: int)
    requires Builds(s, index, list)
    ensures var (s1, binds) := UseVao(SetVao(s, id, index, list).value.0, id);
      var count := DrawCount(s, index, list).value;
      && binds == [GL.BindVertexArray(Some(s.nextHandle))]
      && Render(s1, mode, drawElements) ==
        Ok([if drawElements then GL.DrawElements(mode, count) else GL.DrawArrays(mode, 0, count)])
      && RenderInstanced(s1, instances) == Ok([GL.DrawElementsInstanced(GL.Triangles, count, instances)])
  {
  }

  /** A geometry built with indices `[0, 1, 2]` is drawn with count 3 whatever its attributes. */
  lemma IndexedDrawCount(s: Core, id: VaoId, list: seq<AttributeArray>, mode: GL.Primitive)
    requires SetVao(s, id, Some([0, 1, 2]), list).Ok?
    ensures var s1 := UseVao(SetVao(s, id, Some([0, 1, 2]), list).value.0, id).0;
      Render(s1, mode, true) == Ok([GL.DrawElements(mode, 3.0)])
  {
  }

  /** A geometry built from 12 values of a `vec3` attribute and no indices is drawn with count 4. */
  lemma Vec3DrawCount(s: Core, id: VaoId, name: AttributeName, values: seq<real>, mode: GL.Primitive)
    requires name in s.attributes && s.attributes[name].stride == StrideOf(Vec3)
    requires |values| == 12
    ensures SetVao(s, id, None, [(name, Some(values))]).Ok?
    ensures var s1 := UseVao(SetVao(s, id, None, [(name, Some(values))]).value.0, id).0;
      Render(s1, mode, false) == Ok([GL.DrawArrays(mode, 0, 4.0)])
  {
    var list := [(name, Some(values))];
    UnresolvedSplit(s, list);
    assert !Unresolved(s, list[1..]);
    var count := DrawCount(s, None, list).value;
    assert count * 3.0 == 12.0;
  }

  /** An instanced draw with zero instances is still one well-formed draw call. */
  lemma ZeroInstances(s: Core)
    requires s.currentVao.Some? && s.currentVao.value in s.vaos
    ensures RenderInstanced(s, 0) == Ok([GL.DrawElementsInstanced(GL.Triangles, s.vaos[s.currentVao.value].count, 0)])
  {
  }
}

=== FILE: gl.dfy ===
/**
 * The abstract WebGL2 calls the draw-state manager issues, and the part of the
 * driver's binding state that its "currently bound" cells are meant to mirror.
 * GL objects are named by natural-number handles.
 */
module GL {
  import opened Results

  datatype Stage = Vertex | Fragment

  datatype BufferTarget = ArrayBuffer | ElementArrayBuffer

  datatype Usage = StaticDraw | DynamicDraw

  datatype Primitive = Points | Lines | LineLoop | LineStrip | Triangles | TriangleStrip | TriangleFan

  /** The upload entry points named in the `uniMethod` table. */
  datatype UniformMethod =
    | Uniform1i | Uniform1f
    | Uniform2fv | Uniform3fv | Uniform4fv
    | UniformMatrix2fv | UniformMatrix3fv | UniformMatrix4fv
    | Uniform2iv | Uniform3iv | Uniform4iv

  /** A uniform value as the caller supplies it: a bare number or a flat array. */
  datatype UniformValue = Number(x: real) | Numbers(xs: seq<real>)

  datatype GLCall =
    | UseProgram(program: Option<nat>)
    | GetAttribLocation(linked: nat, name: string)
    | GetUniformLocation(linked: nat, name: string)
    | BindVertexArray(vao: Option<nat>)
    | BindBuffer(target: BufferTarget, buffer: Option<nat>)
    | BufferData(target: BufferTarget, length: nat, usage: Usage)
    | BufferSubData(target: BufferTarget, length: nat)
    | EnableAttrib(location: int)
      /** `vertexAttribPointer(location, size, FLOAT, false, stride, offset)`; strides and offsets in bytes. */
    | AttribPointer(location: int, size: nat, stride: nat, offset: nat)
    | Divisor(location: int, divisor: nat)
      /** `transpose` is present exactly for the matrix upload methods. */
    | Uniform(upload: UniformMethod, uniform: Option<nat>, transpose: Option<bool>, value: UniformValue)
    | DrawElements(mode: Primitive, count: real)
    | DrawArrays(mode: Primitive, first: nat, count: real)
    | DrawElementsInstanced(mode: Primitive, count: real, instances: int)
    | BindFramebuffer(framebuffer: Option<nat>)
    | DrawBuffers(buffers: seq<int>)
    | Viewport(x: real, y: real, width: real, height: real)
    | ActiveTexture(unit: nat)
    | BindTexture(texture: nat)

  /** The program and vertex array the driver has bound (`None` is the null binding). */
  datatype Bindings = Bindings(program: Option<nat>, vao: Option<nat>)

  /** No vertex-array bind follows position `i`. */
  predicate LastVaoBind(calls: seq<GLCall>, i: int) {
    forall j :: 0 <= i < j < |calls| ==> !calls[j].BindVertexArray?
  }

  /** No program bind follows position `i`. */
  predicate LastProgramBind(calls: seq<GLCall>, i: int) {
    forall j :: 0 <= i < j < |calls| ==> !calls[j].UseProgram?
  }

  /**
   * The driver's bindings after it executes `calls` starting from `b`: each
   * bind call replaces its binding, and every other call keeps both.
   */
  function Replay(b: Bindings, calls: seq<GLCall>): (b': Bindings)
    ensures (forall i :: 0 <= i < |calls| ==> !calls[i].UseProgram?) ==> b'.program == b.program
    ensures (forall i :: 0 <= i < |calls| ==> !calls[i].BindVertexArray?) ==> b'.vao == b.vao
    ensures |calls| > 0 && calls[|calls| - 1].BindVertexArray? ==> b'.vao == calls[|calls| - 1].vao
    ensures |calls| > 0 && calls[|calls| - 1].UseProgram? ==> b'.program == calls[|calls| - 1].program
    decreases |calls|
  {
    if |calls| == 0 then b
    else
      var b0 := Replay(b, calls[..|calls| - 1]);
      var last := calls[|calls| - 1];
      if last.UseProgram? then b0.(program := last.program)
      else if last.BindVertexArray? then b0.(vao := last.vao)
      else b0
  }

  /** Replaying two call sequences one after the other is replaying their concatenation. */
  lemma {:induction false} ReplayAppend(b: Bindings, c1: seq<GLCall>, c2: seq<GLCall>)
    ensures Replay(b, c1 + c2) == Replay(Replay(b, c1), c2)
    decreases |c2|
  {
    if |c2| == 0 {
      assert c1 + c2 == c1;
    } else {
      var last := c2[|c2| - 1];
      assert (c1 + c2)[..|c1 + c2| - 1] == c1 + c2[..|c2| - 1];
      ReplayAppend(b, c1, c2[..|c2| - 1]);
    }
  }

  /** Whatever follows it, the last vertex-array bind and the last program bind decide the replayed bindings. */
  lemma {:induction false} ReplayLastBind(b: Bindings, calls: seq<GLCall>, i: int)
    requires 0 <= i < |calls|
    ensures calls[i].BindVertexArray? && LastVaoBind(calls, i) ==> Replay(b, calls).vao == calls[i].vao
    ensures calls[i].UseProgram? && LastProgramBind(calls, i) ==> Replay(b, calls).program == calls[i].program
    decreases |calls|
  {
    if i < |calls| - 1 {
      var init := calls[..|calls| - 1];
      assert init[i] == calls[i];
      assert LastVaoBind(calls, i) ==> LastVaoBind(init, i);
      assert LastProgramBind(calls, i) ==> LastProgramBind(init, i);
      ReplayLastBind(b, init, i);
    }
  }
}

=== FILE: layout.dfy ===
/**
 * Attribute layout: the `strideMap` table (src/Core.ts:18-25), the stride
 * size used for draw counts (`getStrideSize`), and the attribute slots an
 * attribute occupies, as `enableAttribute` declares them.
 */
module Layout {
  import GL

  /** The attribute types a program may declare: the keys of `strideMap`. */
  datatype AttributeType = Float | Vec2 | Vec3 | Vec4 | Mat3 | Mat4

  type Positive = n: nat | 0 < n witness 1

  /** A stride descriptor: `size` floats in one slot, or `rows` slots of `cols` floats each. */
  datatype Stride = Unit(size: Positive) | Matrix(rows: Positive, cols: Positive)

  /** Number of float components of a GLSL attribute type. */
  function Components(t: AttributeType): nat {
    match t
    case Float => 1
    case Vec2 => 2
    case Vec3 => 3
    case Vec4 => 4
    case Mat3 => 9
    case Mat4 => 16
  }

  predicate IsMatrixType(t: AttributeType) {
    t == Mat3 || t == Mat4
  }

  /** Attribute slots the stride occupies. */
  function Slots(st: Stride): Positive {
    match st
    case Unit(_) => 1
    case Matrix(rows, _) => rows
  }

  /** Floats held by each slot. */
  function SlotWidth(st: Stride): Positive {
    match st
    case Unit(size) => size
    case Matrix(_, cols) => cols
  }

  /** Byte distance between consecutive vertices: 0 (tightly packed) for a single slot. */
  function ByteStride(st: Stride): nat {
    match st
    case Unit(_) => 0
    case Matrix(rows, cols) => rows * cols * 4
  }

  /** The `strideMap` table: vectors take one slot, square matrices one slot per row. */
  function StrideOf(t: AttributeType): (st: Stride)
    ensures Slots(st) * SlotWidth(st) == Components(t)
    ensures st.Matrix? <==> IsMatrixType(t)
    ensures st.Matrix? ==> st.rows == st.cols
  {
    match t
    case Float => Unit(1)
    case Vec2 => Unit(2)
    case Vec3 => Unit(3)
    case Vec4 => Unit(4)
    case Mat3 => Matrix(3, 3)
    case Mat4 => Matrix(4, 4)
  }

  /** `getStrideSize`: floats per vertex, the divisor of a geometry's draw count. */
  function StrideSize(st: Stride): (n: Positive)
    ensures n == Slots(st) * SlotWidth(st)
    ensures st.Matrix? ==> ByteStride(st) == 4 * n
  {
    match st
    case Unit(size) => size
    case Matrix(rows, cols) => rows * cols
  }

  /**
   * The stride size of a declared type is its float component count: 3 for a
   * `vec3`, 16 for a `mat4`, whether the stride is stored as one number or as
   * a row/column pair.
   */
  lemma StrideSizeOfType(t: AttributeType)
    ensures StrideSize(StrideOf(t)) == Components(t)
    ensures t == Vec3 ==> StrideSize(StrideOf(t)) == 3
    ensures t == Mat4 ==> StrideSize(StrideOf(t)) == 16 && ByteStride(StrideOf(t)) == 64
  {
  }

  /** One attribute slot: `vertexAttribPointer(location, size, FLOAT, false, stride, offset)`. */
  datatype Slot = Slot(location: int, size: nat, stride: nat, offset: nat)

  /**
   * The slots an attribute at `location` occupies: slot `i` sits at `location + i`,
   * holds `SlotWidth` floats and starts `i * SlotWidth * 4` bytes into the vertex.
   */
  function AttributeSlots(location: int, st: Stride): (slots: seq<Slot>)
    ensures |slots| == Slots(st)
    ensures forall i :: 0 <= i < |slots| ==>
      slots[i] == Slot(location + i, SlotWidth(st), ByteStride(st), i * SlotWidth(st) * 4)
  {
    match st
    case Unit(size) => [Slot(location, size, 0, 0)]
    case Matrix(rows, cols) => MatrixSlots(location, rows, cols, rows)
  }

  /** The first `n` slots of a `rows` x `cols` matrix attribute, in loop order. */
  function MatrixSlots(location: int, rows: Positive, cols: Positive, n: nat): (slots: seq<Slot>)
    requires n <= rows
    ensures |slots| == n
    ensures forall i :: 0 <= i < n ==> slots[i] == Slot(location + i, cols, rows * cols * 4, i * cols * 4)
  {
    if n == 0 then []
    else MatrixSlots(location, rows, cols, n - 1) + [Slot(location + n - 1, cols, rows * cols * 4, (n - 1) * cols * 4)]
  }

  /** The calls declaring `slots`: for each slot, an enable followed by its pointer. */
  function PointerCalls(slots: seq<Slot>): (calls: seq<GL.GLCall>)
    ensures |calls| == 2 * |slots|
    ensures forall i :: 0 <= i < |calls| ==> calls[i].EnableAttrib? || calls[i].AttribPointer?
    ensures forall i :: 0 <= i < |slots| ==>
      && calls[2 * i] == GL.EnableAttrib(slots[i].location)
      && calls[2 * i + 1] == GL.AttribPointer(slots[i].location, slots[i].size, slots[i].stride, slots[i].offset)
  {
    if |slots| == 0 then []
    else
      var s := slots[|slots| - 1];
      PointerCalls(slots[..|slots| - 1]) + [GL.EnableAttrib(s.location), GL.AttribPointer(s.location, s.size, s.stride, s.offset)]
  }

  /** Locations enabled by a call sequence. */
  function Enabled(calls: seq<GL.GLCall>): set<int> {
    set c | c in calls && c.EnableAttrib? :: c.location
  }

  /** Locations of a sequence of slots. */
  function Locations(slots: seq<Slot>): set<int> {
    set s | s in slots :: s.location
  }

  /** The consecutive locations `location .. location + n - 1`. */
  function Range(location: int, n: nat): (r: set<int>)
    ensures forall l :: l in r <==> location <= l < location + n
  {
    if n == 0 then {} else Range(location, n - 1) + {location + n - 1}
  }

  lemma EnabledAppend(a: seq<GL.GLCall>, b: seq<GL.GLCall>)
    ensures Enabled(a + b) == Enabled(a) + Enabled(b)
  {
    assert forall c :: c in a + b <==> c in a || c in b;
  }

  /** The pointer calls of a slot sequence enable exactly the slots' locations. */
  lemma {:induction false} EnabledPointerCalls(slots: seq<Slot>)
    ensures Enabled(PointerCalls(slots)) == Locations(slots)
    decreases |slots|
  {
    if |slots| > 0 {
      var init := slots[..|slots| - 1];
      var s := slots[|slots| - 1];
      EnabledPointerCalls(init);
      EnabledAppend(PointerCalls(init), [GL.EnableAttrib(s.location), GL.AttribPointer(s.location, s.size, s.stride, s.offset)]);
      var pair := [GL.EnableAttrib(s.location), GL.AttribPointer(s.location, s.size, s.stride, s.offset)];
      assert Enabled(pair) == {s.location} by {
        assert forall c :: c in pair <==> c == pair[0] || c == pair[1];
      }
      assert slots == init + [s];
      assert Locations(slots) == Locations(init) + {s.location} by {
        assert forall x :: x in slots <==> x in init || x == s;
      }
    }
  }

  /** Declaring an attribute enables exactly its consecutive slot locations. */
  lemma EnabledSlots(location: int, st: Stride)
    ensures Enabled(PointerCalls(AttributeSlots(location, st))) == Range(location, Slots(st))
  {
    var slots := AttributeSlots(location, st);
    EnabledPointerCalls(slots);
    forall l | l in Range(location, Slots(st))
      ensures l in Locations(slots)
    {
      assert slots[l - location].location == l;
    }
  }

  /** The pointer calls of an attribute's slots, indexed: an enable then a pointer per slot. */
  lemma SlotCalls(location: int, st: Stride)
    ensures var calls := PointerCalls(AttributeSlots(location, st));
      && |calls| == 2 * Slots(st)
      && forall i :: 0 <= i < Slots(st) ==>
           && calls[2 * i] == GL.EnableAttrib(location + i)
           && calls[2 * i + 1] == GL.AttribPointer(location + i, SlotWidth(st), ByteStride(st), i * SlotWidth(st) * 4)
  {
    var slots := AttributeSlots(location, st);
    var calls := PointerCalls(slots);
    forall i | 0 <= i < Slots(st)
      ensures calls[2 * i] == GL.EnableAttrib(location + i)
      ensures calls[2 * i + 1] == GL.AttribPointer(location + i, SlotWidth(st), ByteStride(st), i * SlotWidth(st) * 4)
    {
      assert slots[i] == Slot(location + i, SlotWidth(st), ByteStride(st), i * SlotWidth(st) * 4);
    }
  }

  /** A `mat4` attribute takes four slots, 64 bytes apart per vertex, at byte offsets 0, 16, 32, 48. */
  lemma Mat4Layout(location: int)
    ensures AttributeSlots(location, StrideOf(Mat4)) ==
      [ Slot(location, 4, 64, 0), Slot(location + 1, 4, 64, 16)
      , Slot(location + 2, 4, 64, 32), Slot(location + 3, 4, 64, 48) ]
  {
  }
}

=== FILE: programs.dfy ===
/**
 * Program registry: `setProgram`, `useProgram`, `setAttLoc` and `setUniLoc`
 * of src/Core.ts.
 */
module Programs {
  import opened Results
  import opened CoreState
  import GL
  import Layout
  import Elision

  /** One `#compile` call, as far as its outcome goes. */
  function CompileStage(d: Driver, stage: GL.Stage, text: string): Result<(), Error> {
    match d.compile(stage, text)
    case ShaderNotCreated => Err(CreateShaderFailed(stage))
    case Compiled => Ok(())
    case NotCompiled(log) => Err(CompileFailed(stage, log.GetOr("compile error")))
  }

  /** Whether a compile failure names the given stage. */
  predicate StageError(e: Error, stage: GL.Stage) {
    (e.CreateShaderFailed? || e.CompileFailed?) && e.stage == stage
  }

  /**
   * `setProgram`: compile the vertex stage, then the fragment stage, then link;
   * the first failure is thrown. On success the new program replaces whatever
   * was registered under `id`, and nothing else changes.
   */
  function SetProgram(d: Driver, s: Core, id: ProgramId, vertex: string, fragment: string, feedback: Option<seq<string>>)
    : (r: Result<Core, Error>)
    ensures r.Ok? <==>
      && d.compile(GL.Vertex, vertex).Compiled?
      && d.compile(GL.Fragment, fragment).Compiled?
      && d.link(vertex, fragment, feedback).Linked?
    ensures !d.compile(GL.Vertex, vertex).Compiled? ==> r.Err? && StageError(r.error, GL.Vertex)
    ensures d.compile(GL.Vertex, vertex).Compiled? && !d.compile(GL.Fragment, fragment).Compiled? ==>
      r.Err? && StageError(r.error, GL.Fragment)
    ensures d.compile(GL.Vertex, vertex).ShaderNotCreated? ==> r == Err(CreateShaderFailed(GL.Vertex))
    ensures d.compile(GL.Vertex, vertex).NotCompiled? ==>
      r == Err(CompileFailed(GL.Vertex, d.compile(GL.Vertex, vertex).log.GetOr("compile error")))
    ensures d.compile(GL.Vertex, vertex).Compiled? && d.compile(GL.Fragment, fragment).ShaderNotCreated? ==>
      r == Err(CreateShaderFailed(GL.Fragment))
    ensures d.compile(GL.Vertex, vertex).Compiled? && d.compile(GL.Fragment, fragment).NotCompiled? ==>
      r == Err(CompileFailed(GL.Fragment, d.compile(GL.Fragment, fragment).log.GetOr("compile error")))
    ensures r.Err? && r.error.CompileFailed? ==>
      var text := if r.error.stage == GL.Vertex then vertex else fragment;
      d.compile(r.error.stage, text).NotCompiled? &&
      r.error.message == d.compile(r.error.stage, text).log.GetOr("compile error")
    ensures r.Err? && (r.error.CreateProgramFailed? || r.error.LinkFailed?) ==>
      d.compile(GL.Vertex, vertex).Compiled? && d.compile(GL.Fragment, fragment).Compiled?
    ensures d.compile(GL.Vertex, vertex).Compiled? && d.compile(GL.Fragment, fragment).Compiled? ==>
      && (r == Err(CreateProgramFailed) <==> d.link(vertex, fragment, feedback).ProgramNotCreated?)
      && (r == Err(LinkFailed) <==> d.link(vertex, fragment, feedback).NotLinked?)
    ensures r.Ok? ==> id in r.value.programs && r.value.programs[id] == Program(s.nextHandle, vertex, fragment, feedback)
    ensures r.Ok? ==> forall other :: other != id ==> (other in r.value.programs <==> other in s.programs)
    ensures r.Ok? ==> forall other :: other != id && other in s.programs ==> r.value.programs[other] == s.programs[other]
    ensures r.Ok? ==> r.value.(programs := s.programs, nextHandle := s.nextHandle) == s
    ensures r.Ok? ==> r.value.nextHandle > s.nextHandle
  {
    var _ :- CompileStage(d, GL.Vertex, vertex);
    var _ :- CompileStage(d, GL.Fragment, fragment);
    match d.link(vertex, fragment, feedback)
    case ProgramNotCreated => Err(CreateProgramFailed)
    case NotLinked => Err(LinkFailed)
    case Linked =>
      Ok(s.(programs := s.programs[id := Program(s.nextHandle, vertex, fragment, feedback)],
            nextHandle := s.nextHandle + 1))
  }

  /**
   * `useProgram`: binds the program only when `id` is not the current one;
   * afterwards `id` is current. Nothing else changes.
   */
  function UseProgram(s: Core, id: ProgramId): (r: (Core, seq<GL.GLCall>))
    ensures r.0.currentProgram == Some(id)
    ensures r.0.(currentProgram := s.currentProgram) == s
    ensures Elision.Rebinds(s.currentProgram, id) ==> r.1 == [GL.UseProgram(ProgramHandle(s, id))]
    ensures !Elision.Rebinds(s.currentProgram, id) ==> r.1 == []
  {
    if s.currentProgram != Some(id) then (s.(currentProgram := Some(id)), [GL.UseProgram(ProgramHandle(s, id))])
    else (s, [])
  }

  /** A sequence of `useProgram` calls: the final state and all calls issued. */
  function UsePrograms(s: Core, ids: seq<ProgramId>): (Core, seq<GL.GLCall>)
    decreases |ids|
  {
    if |ids| == 0 then (s, [])
    else
      var (s1, c1) := UseProgram(s, ids[0]);
      var (s2, c2) := UsePrograms(s1, ids[1..]);
      (s2, c1 + c2)
  }

  /** Requesting the bound program again issues nothing and changes nothing. */
  lemma UseProgramIdempotent(s: Core, id: ProgramId)
    ensures UseProgram(UseProgram(s, id).0, id) == (UseProgram(s, id).0, [])
  {
  }

  /**
   * Over any sequence of requests, one bind is issued per switch of id (one per
   * maximal run of identical ids, see `Elision.SwitchesCountRuns`); every call
   * is a program bind, and the last id requested ends up current.
   */
  lemma {:induction false} UseProgramsBindOncePerRun(s: Core, ids: seq<ProgramId>)
    ensures |UsePrograms(s, ids).1| == Elision.Switches(s.currentProgram, ids)
    ensures forall c :: c in UsePrograms(s, ids).1 ==> c.UseProgram?
    ensures |ids| > 0 ==> UsePrograms(s, ids).0.currentProgram == Some(ids[|ids| - 1])
    ensures UsePrograms(s, ids).0.(currentProgram := s.currentProgram) == s
    decreases |ids|
  {
    if |ids| > 0 {
      var (s1, c1) := UseProgram(s, ids[0]);
      UseProgramsBindOncePerRun(s1, ids[1..]);
      if |ids| > 1 {
        assert ids[1..][|ids[1..]| - 1] == ids[|ids| - 1];
      }
    }
  }

  /** A run of one id issues exactly one bind when that id is not already bound, and none when it is. */
  lemma {:induction false} RunOfOneProgram(s: Core, ids: seq<ProgramId>, id: ProgramId)
    requires |ids| > 0 && forall i :: 0 <= i < |ids| ==> ids[i] == id
    ensures s.currentProgram != Some(id) ==> UsePrograms(s, ids).1 == [GL.UseProgram(ProgramHandle(s, id))]
    ensures s.currentProgram == Some(id) ==> UsePrograms(s, ids).1 == []
    decreases |ids|
  {
    var (s1, c1) := UseProgram(s, ids[0]);
    if |ids| > 1 {
      RunOfOneProgram(s1, ids[1..], id);
      assert UsePrograms(s1, ids[1..]).1 == [];
    }
  }

  /** The `!attLoc[name]` test: the name is unresolved, or resolved to location 0. */
  predicate NeedsQuery(attributes: map<AttributeName, Attribute>, name: AttributeName) {
    name !in attributes || attributes[name].location == 0
  }

  /** Names declared in an attribute-type list. */
  function Names(types: seq<(AttributeName, Layout.AttributeType)>): set<AttributeName> {
    set i | 0 <= i < |types| :: types[i].0
  }

  /** The names of a non-empty list: its first name and the names of the rest. */
  lemma NamesSplit(types: seq<(AttributeName, Layout.AttributeType)>)
    requires |types| > 0
    ensures Names(types) == {types[0].0} + Names(types[1..])
  {
    forall n | n in Names(types) ensures n in {types[0].0} + Names(types[1..]) {
      var i :| 0 <= i < |types| && types[i].0 == n;
      if i > 0 { assert types[1..][i - 1].0 == n; }
    }
    forall n | n in Names(types[1..]) ensures n in Names(types) {
      var i :| 0 <= i < |types[1..]| && types[1..][i].0 == n;
      assert types[i + 1].0 == n;
    }
  }

  /** Whether some declared name must be queried. */
  predicate SomeQuery(attributes: map<AttributeName, Attribute>, types: seq<(AttributeName, Layout.AttributeType)>) {
    exists i :: 0 <= i < |types| && NeedsQuery(attributes, types[i].0)
  }

  /** `SomeQuery` splits into the first name and the rest. */
  lemma SomeQuerySplit(attributes: map<AttributeName, Attribute>, types: seq<(AttributeName, Layout.AttributeType)>)
    requires |types| > 0
    ensures SomeQuery(attributes, types) <==> NeedsQuery(attributes, types[0].0) || SomeQuery(attributes, types[1..])
  {
    if SomeQuery(attributes, types[1..]) {
      var j :| 0 <= j < |types[1..]| && NeedsQuery(attributes, types[1..][j].0);
      assert types[j + 1] == types[1..][j];
    }
    if SomeQuery(attributes, types) {
      var i :| 0 <= i < |types| && NeedsQuery(attributes, types[i].0);
      if i > 0 { assert types[1..][i - 1] == types[i]; }
    }
  }

  /** The type given to `name` by its first declaration in `types`. */
  function FirstType(types: seq<(AttributeName, Layout.AttributeType)>, name: AttributeName): Layout.AttributeType
    requires name in Names(types)
    decreases |types|
  {
    if types[0].0 == name then types[0].1
    else
      assert name in Names(types[1..]) by {
        var i :| 0 <= i < |types| && types[i].0 == name;
        assert types[1..][i - 1].0 == name;
      }
      FirstType(types[1..], name)
  }

  /** One iteration of `setAttLoc`: query the location if needed, keep any stored entry (`??=`). */
  function DeclareAttribute(d: Driver, s: Core, id: ProgramId, name: AttributeName, t: Layout.AttributeType)
    : (r: Result<(Core, seq<GL.GLCall>), Error>)
    ensures r.Err? <==> NeedsQuery(s.attributes, name) && id !in s.programs
    ensures r.Err? ==> r.error == UnknownProgram(id)
    ensures r.Ok? ==> r.value.0 == s.(attributes := r.value.0.attributes)
    ensures r.Ok? ==> r.value.0.attributes.Keys == s.attributes.Keys + {name}
    ensures r.Ok? ==> forall n :: n in s.attributes ==> r.value.0.attributes[n] == s.attributes[n]
    ensures r.Ok? && name !in s.attributes ==>
      r.value.0.attributes[name] == Attribute(d.attribLocation(s.programs[id], name), Layout.StrideOf(t))
    ensures r.Ok? ==> forall n :: n != name ==> (NeedsQuery(r.value.0.attributes, n) <==> NeedsQuery(s.attributes, n))
    ensures r.Ok? ==> r.value.1 == if NeedsQuery(s.attributes, name) then [GL.GetAttribLocation(s.programs[id].handle, name)] else []
  {
    if !NeedsQuery(s.attributes, name) then Ok((s, []))
    else if id !in s.programs then Err(UnknownProgram(id))
    else
      var p := s.programs[id];
      var a := if name in s.attributes then s.attributes[name]
               else Attribute(d.attribLocation(p, name), Layout.StrideOf(t));
      Ok((s.(attributes := s.attributes[name := a]), [GL.GetAttribLocation(p.handle, name)]))
  }

  /**
   * `setAttLoc`: afterwards every declared name is resolved. The first
   * resolution of a name wins: stored entries keep their location and stride,
   * and a new name gets the location the driver reports and the stride of its
   * first declared type. The driver is queried exactly for the names that are
   * unresolved or resolved to location 0; querying a program never registered
   * throws.
   */
  function SetAttLoc(d: Driver, s: Core, id: ProgramId, types: seq<(AttributeName, Layout.AttributeType)>)
    : (r: Result<(Core, seq<GL.GLCall>), Error>)
    ensures r.Err? <==> id !in s.programs && SomeQuery(s.attributes, types)
    ensures r.Err? ==> r.error == UnknownProgram(id)
    ensures r.Ok? ==> r.value.0 == s.(attributes := r.value.0.attributes)
    ensures r.Ok? ==> r.value.0.attributes.Keys == s.attributes.Keys + Names(types)
    ensures r.Ok? ==> forall n :: n in s.attributes ==> r.value.0.attributes[n] == s.attributes[n]
    ensures r.Ok? ==> forall c :: c in r.value.1 ==>
      && c.GetAttribLocation? && c.name in Names(types) && NeedsQuery(s.attributes, c.name)
      && id in s.programs && c.linked == s.programs[id].handle
    decreases |types|
  {
    if |types| == 0 then Ok((s, []))
    else
      var first :- DeclareAttribute(d, s, id, types[0].0, types[0].1);
      var rest :- SetAttLoc(d, first.0, id, types[1..]);
      NamesSplit(types);
      SomeQuerySplit(s.attributes, types);
      Ok((rest.0, first.1 + rest.1))
  }

  /**
   * First declaration wins: a name unresolved before `setAttLoc` gets the
   * location the driver reports and the stride of its first declared type,
   * whatever types later declarations give it.
   */
  lemma {:induction false} SetAttLocFirstDeclarationWins(d: Driver, s: Core, id: ProgramId,
                                                         types: seq<(AttributeName, Layout.AttributeType)>, n: AttributeName)
    requires SetAttLoc(d, s, id, types).Ok? && n in Names(types) && n !in s.attributes
    ensures id in s.programs
    ensures SetAttLoc(d, s, id, types).value.0.attributes[n] ==
      Attribute(d.attribLocation(s.programs[id], n), Layout.StrideOf(FirstType(types, n)))
    decreases |types|
  {
    var first := DeclareAttribute(d, s, id, types[0].0, types[0].1).value;
    NamesSplit(types);
    if n != types[0].0 {
      SetAttLocFirstDeclarationWins(d, first.0, id, types[1..], n);
    }
  }

  /** Every declared name that is unresolved or at location 0 is queried. */
  lemma {:induction false} SetAttLocQueriesUnresolved(d: Driver, s: Core, id: ProgramId,
                                                      types: seq<(AttributeName, Layout.AttributeType)>, n: AttributeName)
    requires SetAttLoc(d, s, id, types).Ok? && n in Names(types) && NeedsQuery(s.attributes, n)
    ensures id in s.programs && GL.GetAttribLocation(s.programs[id].handle, n) in SetAttLoc(d, s, id, types).value.1
    decreases |types|
  {
    var first := DeclareAttribute(d, s, id, types[0].0, types[0].1).value;
    var rest := SetAttLoc(d, first.0, id, types[1..]).value;
    NamesSplit(types);
    if n == types[0].0 {
      assert GL.GetAttribLocation(s.programs[id].handle, n) in first.1;
    } else {
      SetAttLocQueriesUnresolved(d, first.0, id, types[1..], n);
      assert GL.GetAttribLocation(s.programs[id].handle, n) in rest.1;
    }
    assert SetAttLoc(d, s, id, types).value.1 == first.1 + rest.1;
  }

  /** A name stored at location 0 is queried again on redeclaration, yet keeps its entry. */
  lemma ZeroLocationRequeried(d: Driver, s: Core, id: ProgramId, name: AttributeName, t: Layout.AttributeType)
    requires id in s.programs && name in s.attributes && s.attributes[name].location == 0
    ensures SetAttLoc(d, s, id, [(name, t)]).Ok?
    ensures SetAttLoc(d, s, id, [(name, t)]).value.1 == [GL.GetAttribLocation(s.programs[id].handle, name)]
    ensures SetAttLoc(d, s, id, [(name, t)]).value.0 == s
  {
    assert [(name, t)][1..] == [];
  }

  /** The uniform map and queries of `setUniLoc` for a registered program, in order. */
  function ResolveUniforms(d: Driver, p: Program, names: seq<UniformName>): (r: (map<UniformName, nat>, seq<GL.GLCall>))
    ensures forall n :: n in r.0 <==> n in names && d.uniformLocation(p, n).Some?
    ensures forall n :: n in r.0 ==> r.0[n] == d.uniformLocation(p, n).value
    ensures |r.1| == |names|
    ensures forall i :: 0 <= i < |names| ==> r.1[i] == GL.GetUniformLocation(p.handle, names[i])
    decreases |names|
  {
    if |names| == 0 then (map[], [])
    else
      var init := names[..|names| - 1];
      var last := names[|names| - 1];
      var (m, calls) := ResolveUniforms(d, p, init);
      assert forall n :: n in names <==> n in init || n == last by {
        assert names == init + [last];
      }
      var loc := d.uniformLocation(p, last);
      (if loc.Some? then m[last := loc.value] else m, calls + [GL.GetUniformLocation(p.handle, last)])
  }

  /**
   * `setUniLoc`: replaces the program's uniform map by one holding exactly the
   * listed names the driver reports a location for, at that location. One
   * query is issued per listed name, in order; other programs' maps are kept.
   */
  function SetUniLoc(d: Driver, s: Core, id: ProgramId, names: seq<UniformName>)
    : (r: Result<(Core, seq<GL.GLCall>), Error>)
    ensures r.Err? <==> |names| > 0 && id !in s.programs
    ensures r.Err? ==> r.error == UnknownProgram(id)
    ensures r.Ok? ==> id in r.value.0.uniLoc && r.value.0 == s.(uniLoc := s.uniLoc[id := r.value.0.uniLoc[id]])
    ensures r.Ok? ==> forall n :: n in r.value.0.uniLoc[id] <==>
      n in names && id in s.programs && d.uniformLocation(s.programs[id], n).Some?
    ensures r.Ok? ==> forall n :: n in r.value.0.uniLoc[id] ==>
      id in s.programs && r.value.0.uniLoc[id][n] == d.uniformLocation(s.programs[id], n).value
    ensures r.Ok? ==> |r.value.1| == |names|
    ensures r.Ok? ==> forall i :: 0 <= i < |names| ==>
      id in s.programs && r.value.1[i] == GL.GetUniformLocation(s.programs[id].handle, names[i])
  {
    if |names| == 0 then Ok((s.(uniLoc := s.uniLoc[id := map[]]), []))
    else if id !in s.programs then Err(UnknownProgram(id))
    else
      var (m, calls) := ResolveUniforms(d, s.programs[id], names);
      Ok((s.(uniLoc := s.uniLoc[id := m]), calls))
  }
}

=== FILE: render_target.dfy ===
/** Render-target switching: `useRenderer` of src/Core.ts. */
module RenderTarget {
  import opened Results
  import opened CoreState
  import GL
  import Elision

  /** The `useRenderer` argument. Sizes and the pixel ratio are JavaScript numbers. */
  datatype Target = Target(
    id: RendererId, pixelRatio: real, width: real, height: real,
    frameBuffer: Option<nat>, drawBuffers: seq<int>)

  /**
   * `useRenderer`: on a new id, binds the framebuffer, selects the draw
   * buffers and sets the viewport to the scaled size, in that order, and makes
   * the id current; on the current id it issues nothing, whatever the other
   * fields say.
   */
  function UseRenderer(s: Core, t: Target): (r: (Core, seq<GL.GLCall>))
    ensures r.0.currentRenderer == Some(t.id)
    ensures r.0.(currentRenderer := s.currentRenderer) == s
    ensures !Elision.Rebinds(s.currentRenderer, t.id) ==> r.1 == [] && r.0 == s
    ensures Elision.Rebinds(s.currentRenderer, t.id) ==>
      r.1 == [ GL.BindFramebuffer(t.frameBuffer), GL.DrawBuffers(t.drawBuffers)
             , GL.Viewport(0.0, 0.0, t.width * t.pixelRatio, t.height * t.pixelRatio) ]
  {
    if s.currentRenderer != Some(t.id) then
      (s.(currentRenderer := Some(t.id)),
       [ GL.BindFramebuffer(t.frameBuffer), GL.DrawBuffers(t.drawBuffers)
       , GL.Viewport(0.0, 0.0, t.width * t.pixelRatio, t.height * t.pixelRatio) ])
    else (s, [])
  }

  /** A second switch to the same id issues nothing, even with a new size or framebuffer. */
  lemma UseRendererIdempotent(s: Core, t: Target, t': Target)
    requires t'.id == t.id
    ensures UseRenderer(UseRenderer(s, t).0, t') == (UseRenderer(s, t).0, [])
  {
  }

  /** Switching away and back recomputes the viewport from the sizes given on the way back. */
  lemma SwitchBackRecomputesViewport(s: Core, a: Target, b: Target, a': Target)
    requires a.id != b.id && a'.id == a.id
    ensures var s1 := UseRenderer(UseRenderer(s, a).0, b).0;
      GL.Viewport(0.0, 0.0, a'.width * a'.pixelRatio, a'.height * a'.pixelRatio) in UseRenderer(s1, a').1
  {
  }
}

=== FILE: results.dfy ===
/** Optional values and fallible results shared by every module of the model. */
module Results {

  /** A value that may be absent: JavaScript's `null`/`undefined` on one side, a value on the other. */
  datatype Option<+T> = None | Some(value: T) {

    /** The carried value, or `default` when absent (JavaScript's `??`). */
    function GetOr(default: T): T {
      match this
      case Some(v) => v
      case None => default
    }
  }

  /** The outcome of an operation that may throw: its value, or the error it throws. */
  datatype Result<+T, +E> = Ok(value: T) | Err(error: E) {

    predicate IsFailure() {
      Err?
    }

    function PropagateFailure<U>(): Result<U, E>
      requires Err?
    {
      Err(error)
    }

    function Extract(): T
      requires Ok?
    {
      value
    }
  }
}

=== FILE: state.dfy ===
/**
 * The state of the draw-state manager `Core` (src/Core.ts:27-42), its
 * errors, and the driver queries it depends on, supplied as oracles.
 */
module CoreState {
  import opened Results
  import GL
  import Layout

  type ProgramId = string
  type VaoId = string
  type RendererId = string
  type AttributeName = string
  type UniformName = string
  type TextureKey = string

  /** A linked program: its GL handle and the sources it was built from. */
  datatype Program = Program(handle: nat, vertex: string, fragment: string, feedback: Option<seq<string>>)

  /**
   * A resolved attribute: its location and stride descriptor. The source keeps
   * these in two records (`attLoc`, `stride`) that always gain a name together,
   * so the model keeps one map.
   */
  datatype Attribute = Attribute(location: int, stride: Layout.Stride)

  /** A built vertex array: its GL handle and its draw count (a JavaScript number). */
  datatype Geometry = Geometry(handle: nat, count: real)

  /** A texture slot: the texture handle (possibly null) and its unit number. */
  datatype TextureSlot = TextureSlot(data: Option<nat>, number: nat)

  datatype Core = Core(
    programs: map<ProgramId, Program>,
    vaos: map<VaoId, Geometry>,
    uniLoc: map<ProgramId, map<UniformName, nat>>,
    attributes: map<AttributeName, Attribute>,
    textures: map<TextureKey, TextureSlot>,
    currentProgram: Option<ProgramId>,
    currentVao: Option<VaoId>,
    currentRenderer: Option<RendererId>,
    /** The next unused GL object handle: a stand-in for the driver's `create*` calls. */
    nextHandle: nat)

  /** A freshly constructed manager: empty registries, nothing bound. */
  const Initial: Core := Core(map[], map[], map[], map[], map[], None, None, None, 0)

  /** What the driver reports for one shader stage. */
  datatype ShaderStatus = ShaderNotCreated | Compiled | NotCompiled(log: Option<string>)

  /** What the driver reports for linking. */
  datatype LinkStatus = ProgramNotCreated | Linked | NotLinked

  /** Driver queries: their answers are outside the model and are taken as given. */
  datatype Driver = Driver(
    compile: (GL.Stage, string) -> ShaderStatus,
    link: (string, string, Option<seq<string>>) -> LinkStatus,
    attribLocation: (Program, AttributeName) -> int,
    uniformLocation: (Program, UniformName) -> Option<nat>)

  datatype Error =
    | CreateShaderFailed(stage: GL.Stage)
    | CompileFailed(stage: GL.Stage, message: string)
    | CreateProgramFailed
    | LinkFailed
      /** A driver query was handed `program[id]` for an id never registered. */
    | UnknownProgram(id: ProgramId)
      /** `enableAttribute` on a name no program declared (src/Core.ts:136), or a stride read of one. */
    | MissingStride(name: AttributeName)
      /** A geometry without indices whose first attribute is missing or undefined. */
    | NoFirstAttribute
      /** `setUniforms` while the current program has no resolved uniform map. */
    | NoUniformLocations
      /** A draw while no registered geometry is current. */
    | NoCurrentVao
    | UnknownTexture(key: TextureKey)

  /** The handle `program[id]` evaluates to: null for an unregistered id. */
  function ProgramHandle(s: Core, id: ProgramId): Option<nat> {
    if id in s.programs then Some(s.programs[id].handle) else None
  }

  /** The handle `vao[id]` evaluates to: null for an unregistered id. */
  function VaoHandle(s: Core, id: VaoId): Option<nat> {
    if id in s.vaos then Some(s.vaos[id].handle) else None
  }
}

=== FILE: textures.dfy ===
/** Texture-unit allocation: `setTexture` and `useTexture` of src/Core.ts. */
module Textures {
  import opened Results
  import opened CoreState
  import GL
  import Layout

  /** The unit numbers assigned so far. */
  function Units(t: map<TextureKey, TextureSlot>): set<int> {
    set k | k in t :: t[k].number
  }

  /** No two keys share a unit. */
  ghost predicate DistinctUnits(t: map<TextureKey, TextureSlot>) {
    forall k1, k2 :: k1 in t && k2 in t && k1 != k2 ==> t[k1].number != t[k2].number
  }

  /** Unit numbers are exactly `0 .. k - 1` for `k` keys, one per key. */
  ghost predicate ValidUnits(t: map<TextureKey, TextureSlot>) {
    Units(t) == Layout.Range(0, |t|) && DistinctUnits(t)
  }

  /** A freshly constructed manager has no textures, so its units are trivially valid. */
  lemma InitialValidUnits()
    ensures ValidUnits(Initial.textures)
  {
    assert Layout.Range(0, 0) == {};
  }

  /** Replacing the data under a known key keeps the set of units. */
  lemma ReplaceKeepsUnits(t: map<TextureKey, TextureSlot>, key: TextureKey, data: Option<nat>)
    requires key in t
    ensures ValidUnits(t) ==> ValidUnits(t[key := TextureSlot(data, t[key].number)])
  {
    var t' := t[key := TextureSlot(data, t[key].number)];
    assert Units(t') == Units(t) by {
      assert forall k :: k in t' ==> t'[k].number == t[k].number;
    }
  }

  /** Adding a new key adds exactly its unit to the set of units. */
  lemma UnitsAdd(t: map<TextureKey, TextureSlot>, key: TextureKey, slot: TextureSlot)
    requires key !in t
    ensures Units(t[key := slot]) == Units(t) + {slot.number}
  {
    var t' := t[key := slot];
    forall n | n in Units(t') ensures n in Units(t) + {slot.number} {
      var k :| k in t' && t'[k].number == n;
      if k != key { assert t[k].number == n; }
    }
    forall n | n in Units(t) ensures n in Units(t') {
      var k :| k in t && t[k].number == n;
      assert t'[k].number == n;
    }
    assert t'[key].number == slot.number;
  }

  /** Under the invariant every unit is below the key count. */
  lemma UnitsBelowCount(t: map<TextureKey, TextureSlot>)
    requires ValidUnits(t)
    ensures forall k :: k in t ==> t[k].number < |t|
  {
    forall k | k in t ensures t[k].number < |t| {
      assert t[k].number in Units(t);
    }
  }

  /** A new key whose unit is above every existing unit keeps units distinct. */
  lemma AddKeepsDistinct(t: map<TextureKey, TextureSlot>, key: TextureKey, slot: TextureSlot)
    requires key !in t && DistinctUnits(t)
    requires forall k :: k in t ==> t[k].number < slot.number
    ensures DistinctUnits(t[key := slot])
  {
  }

  /** Numbering a new key by the count of keys keeps the units exactly `0 .. k - 1`, and the new unit is the largest. */
  lemma AppendKeepsUnits(t: map<TextureKey, TextureSlot>, key: TextureKey, data: Option<nat>)
    requires key !in t
    ensures ValidUnits(t) ==> ValidUnits(t[key := TextureSlot(data, |t|)])
    ensures ValidUnits(t) ==> forall k :: k in t ==> t[k].number < |t|
  {
    if ValidUnits(t) {
      var slot := TextureSlot(data, |t|);
      UnitsBelowCount(t);
      UnitsAdd(t, key, slot);
      AddKeepsDistinct(t, key, slot);
      assert |t[key := slot]| == |t| + 1;
      assert Layout.Range(0, |t| + 1) == Layout.Range(0, |t|) + {|t|};
    }
  }

  /**
   * `setTexture`: a known key keeps its unit and takes the new handle; a new
   * key gets the unit numbered by the count of keys already present. Either
   * way the returned unit is the key's, and unit numbers stay exactly
   * `0 .. k - 1`, one per key.
   */
  function SetTexture(s: Core, key: TextureKey, data: Option<nat>): (r: (Core, nat))
    ensures key in s.textures ==> r.1 == s.textures[key].number && |r.0.textures| == |s.textures|
    ensures key !in s.textures ==> r.1 == |s.textures| && |r.0.textures| == |s.textures| + 1
    ensures r.0 == s.(textures := s.textures[key := TextureSlot(data, r.1)])
    ensures ValidUnits(s.textures) ==> ValidUnits(r.0.textures) && r.1 < |r.0.textures|
    ensures ValidUnits(s.textures) && key !in s.textures ==> forall k :: k in s.textures ==> s.textures[k].number < r.1
  {
    if key in s.textures then
      var number := s.textures[key].number;
      ReplaceKeepsUnits(s.textures, key, data);
      assert ValidUnits(s.textures) ==> number in Layout.Range(0, |s.textures|) by {
        assert number in Units(s.textures);
      }
      (s.(textures := s.textures[key := TextureSlot(data, number)]), number)
    else
      var number := |s.textures|;
      AppendKeepsUnits(s.textures, key, data);
      (s.(textures := s.textures[key := TextureSlot(data, number)]), number)
  }

  /** Replacing the texture under a key keeps the unit it was given. */
  lemma SameKeySameUnit(s: Core, key: TextureKey, h1: Option<nat>, h2: Option<nat>)
    ensures var (s1, n1) := SetTexture(s, key, h1);
      SetTexture(s1, key, h2).1 == n1
  {
  }

  /** Two distinct new keys receive distinct units, the later one higher. */
  lemma DistinctKeysIncreasingUnits(s: Core, k1: TextureKey, h1: Option<nat>, k2: TextureKey, h2: Option<nat>)
    requires k1 !in s.textures && k2 !in s.textures && k1 != k2
    ensures var (s1, n1) := SetTexture(s, k1, h1);
      n1 < SetTexture(s1, k2, h2).1
  {
  }

  /** A sequence of `setTexture` calls: the final state and the units returned. */
  function SetTextures(s: Core, entries: seq<(TextureKey, Option<nat>)>): (Core, seq<nat>)
    decreases |entries|
  {
    if |entries| == 0 then (s, [])
    else
      var (s1, n) := SetTexture(s, entries[0].0, entries[0].1);
      var (s2, ns) := SetTextures(s1, entries[1..]);
      (s2, [n] + ns)
  }

  /** Fresh, distinct keys are numbered consecutively from the current key count. */
  lemma {:induction false} FreshKeysNumberedInOrder(s: Core, entries: seq<(TextureKey, Option<nat>)>)
    requires forall i :: 0 <= i < |entries| ==> entries[i].0 !in s.textures
    requires forall i, j :: 0 <= i < j < |entries| ==> entries[i].0 != entries[j].0
    ensures |SetTextures(s, entries).1| == |entries|
    ensures forall i :: 0 <= i < |entries| ==> SetTextures(s, entries).1[i] == |s.textures| + i
    decreases |entries|
  {
    if |entries| > 0 {
      var (s1, n) := SetTexture(s, entries[0].0, entries[0].1);
      forall i | 0 <= i < |entries[1..]| ensures entries[1..][i].0 !in s1.textures {
        assert entries[1..][i] == entries[i + 1];
        assert entries[0].0 != entries[i + 1].0;
      }
      forall i, j | 0 <= i < j < |entries[1..]| ensures entries[1..][i].0 != entries[1..][j].0 {
        assert entries[1..][i] == entries[i + 1] && entries[1..][j] == entries[j + 1];
      }
      FreshKeysNumberedInOrder(s1, entries[1..]);
      var ns := SetTextures(s1, entries[1..]).1;
      assert SetTextures(s, entries).1 == [n] + ns;
      forall i | 0 <= i < |entries| ensures ([n] + ns)[i] == |s.textures| + i {
        if i > 0 { assert ([n] + ns)[i] == ns[i - 1]; }
      }
    }
  }

  /**
   * `useTexture`: activates the key's unit and binds its texture when the
   * stored handle is non-null; an unknown key throws.
   */
  function UseTexture(s: Core, key: TextureKey): (r: Result<seq<GL.GLCall>, Error>)
    ensures r.Err? <==> key !in s.textures
    ensures r.Ok? && s.textures[key].data.None? ==> r.value == []
    ensures r.Ok? && s.textures[key].data.Some? ==>
      r.value == [GL.ActiveTexture(s.textures[key].number), GL.BindTexture(s.textures[key].data.value)]
  {
    if key !in s.textures then Err(UnknownTexture(key))
    else
      var slot := s.textures[key];
      if slot.data.Some? then Ok([GL.ActiveTexture(slot.number), GL.BindTexture(slot.data.value)])
      else Ok([])
  }

  /** After `setTexture(key, h)`, using the key binds `h` on the unit `setTexture` returned. */
  lemma SetThenUse(s: Core, key: TextureKey, h: nat)
    ensures var (s1, n) := SetTexture(s, key, Some(h));
      UseTexture(s1, key) == Ok([GL.ActiveTexture(n), GL.BindTexture(h)])
  {
  }
}

=== FILE: uniforms.dfy ===
/** Uniform upload: `setUniforms` of src/Core.ts. */
module Uniforms {
  import opened Results
  import opened CoreState
  import GL
  import Dispatch

  /** One entry of the `setUniforms` argument; `None` is a `null` or `undefined` value. */
  datatype UniformSetting = UniformSetting(name: UniformName, kind: Dispatch.UniformType, value: Option<GL.UniformValue>)

  /** The entries that carry a value, in order: every such entry is kept, and only those. */
  function WithValues(us: seq<UniformSetting>): (r: seq<UniformSetting>)
    ensures forall u :: u in r ==> u.value.Some? && u in us
    ensures forall i :: 0 <= i < |us| && us[i].value.Some? ==> us[i] in r
    ensures |r| <= |us|
    decreases |us|
  {
    if |us| == 0 then []
    else if us[0].value.None? then WithValues(us[1..])
    else [us[0]] + WithValues(us[1..])
  }

  /** The current program's uniform locations, `uniLoc[currentProgram]`, whose absence throws on use. */
  function CurrentLocations(s: Core): Result<map<UniformName, nat>, Error> {
    if s.currentProgram.Some? && s.currentProgram.value in s.uniLoc then Ok(s.uniLoc[s.currentProgram.value])
    else Err(NoUniformLocations)
  }

  /** The location of `name` in a uniform map: null when the name was not resolved. */
  function Lookup(locations: map<UniformName, nat>, name: UniformName): Option<nat> {
    if name in locations then Some(locations[name]) else None
  }

  /**
   * `setUniforms`: one upload per entry that has a value, in order, chosen by
   * the `uniMethod` row of its type and aimed at the name's location in the
   * current program (null when unresolved); entries without a value issue
   * nothing. It throws only when some entry has a value and the current
   * program has no uniform map; the map is only read for such an entry, and
   * the loop changes no state, so reading it once is the same.
   */
  function SetUniforms(s: Core, us: seq<UniformSetting>): (r: Result<seq<GL.GLCall>, Error>)
    ensures r.Err? <==> |WithValues(us)| > 0 && CurrentLocations(s).Err?
    ensures r.Err? ==> r.error == NoUniformLocations
    ensures r.Ok? ==> |r.value| == |WithValues(us)|
    ensures r.Ok? ==> forall i :: 0 <= i < |r.value| ==>
      var u := WithValues(us)[i];
      r.value[i] == Dispatch.Upload(u.kind, Lookup(s.uniLoc[s.currentProgram.value], u.name), u.value.value)
  {
    if |WithValues(us)| == 0 then Ok([])
    else
      var locations :- CurrentLocations(s);
      var vs := WithValues(us);
      Ok(seq(|vs|, i requires 0 <= i < |vs| => Dispatch.Upload(vs[i].kind, Lookup(locations, vs[i].name), vs[i].value.value)))
  }

  /** Filtering a concatenation filters each part and keeps their order. */
  lemma {:induction false} WithValuesAppend(a: seq<UniformSetting>, b: seq<UniformSetting>)
    ensures WithValues(a + b) == WithValues(a) + WithValues(b)
    decreases |a|
  {
    if |a| == 0 {
      assert a + b == b;
    } else {
      assert (a + b)[0] == a[0] && (a + b)[1..] == a[1..] + b;
      WithValuesAppend(a[1..], b);
    }
  }

  /** Inserting an entry without a value anywhere leaves the entries with values unchanged. */
  lemma {:induction false} WithValuesSkipsNull(us: seq<UniformSetting>, k: nat, extra: UniformSetting)
    requires k <= |us| && extra.value.None?
    ensures WithValues(us[..k] + [extra] + us[k..]) == WithValues(us)
  {
    var a, b := us[..k], us[k..];
    assert WithValues([extra]) == [] by {
      assert [extra][1..] == [];
    }
    WithValuesAppend(a, [extra]);
    assert WithValues(a + [extra]) == WithValues(a);
    WithValuesAppend(a + [extra], b);
    WithValuesAppend(a, b);
    assert a + b == us;
  }

  /** Inserting an entry without a value anywhere changes neither the calls nor the outcome. */
  lemma NullSettingSkipped(s: Core, us: seq<UniformSetting>, k: nat, name: UniformName, kind: Dispatch.UniformType)
    requires k <= |us|
    ensures SetUniforms(s, us[..k] + [UniformSetting(name, kind, None)] + us[k..]) == SetUniforms(s, us)
  {
    WithValuesSkipsNull(us, k, UniformSetting(name, kind, None));
  }

  /**
   * Every entry with a value is uploaded, after exactly the valued entries
   * before it: by its type's `uniMethod` row, at its name's location in the
   * current program (null when unresolved).
   */
  lemma {:induction false} SetUniformsUploadsEach(s: Core, us: seq<UniformSetting>, i: nat)
    requires i < |us| && us[i].value.Some?
    requires CurrentLocations(s).Ok?
    ensures SetUniforms(s, us).Ok?
    ensures var j := |WithValues(us[..i])|;
      && j < |SetUniforms(s, us).value|
      && SetUniforms(s, us).value[j] == GL.Uniform(
        Dispatch.UniMethod(us[i].kind).upload,
        Lookup(s.uniLoc[s.currentProgram.value], us[i].name),
        if Dispatch.IsMatrix(us[i].kind) then Some(false) else None,
        us[i].value.value)
  {
    assert us == us[..i] + [us[i]] + us[i + 1..];
    WithValuesAppend(us[..i] + [us[i]], us[i + 1..]);
    WithValuesAppend(us[..i], [us[i]]);
    assert WithValues([us[i]]) == [us[i]] + WithValues([us[i]][1..]);
    assert WithValues(us)[|WithValues(us[..i])|] == us[i];
  }
}
